=== FILE: README.md ===
# Named-map resolution, map controller rules and database connection setup

This project is a Dafny model of three pieces of a map tile server for
PostgreSQL/PostGIS users.

**The named-map configuration provider** (`NamedMapMapConfigProvider`) turns a stored, named template into a map configuration for one request. Step by step, it:
- fetches the owner's template and checks that the request's token may instantiate it;
- writes the owner's database parameters into a fresh renderer-parameters object;
- fetches the owner's map API key;
- parses the caller's template parameters and instantiates the template;
- hands the result to the configuration adapter;
- asks for render limits;
- memoises the whole outcome on the provider object.

The provider also builds the cache keys of the resolved map (`createKey`, `getKey`, `filter`, `configHash`). Finally, it finds the tables a map reads, through a process-wide cache keyed on the renderer parameters and the map configuration's id.

**The map controller** wraps the rendering backend:
- it works out the statistics label of a tile format;
- it rewrites Mapnik style errors so that they name the layer;
- it increments the success and error counters;
- it refuses a layergroup `GET` without `config` and a `POST` that is not JSON;
- it chooses the reply (error body and status, response, or response with headers) for tiles, attributes and layergroup creation.

**The connection-setup middleware** resets `res.locals.db`, lets the connection lookup fill it, and then does one of two things:
- on failure, it passes the lookup's error on, tagged `http_status = 404` when the message says the database name was not found;
- on success, it fills the missing `dbuser`/`dbpassword`/`dbhost`/`dbport` from the server's postgres settings.

How the model is built:
- Collaborators are total functions over values. These are the template store, the postgres connection, the metadata backend, the limits API, the configuration adapter, `JSON.parse`/`JSON.stringify`, MD5, the table-introspection library, `req2params`, the rendering backend and the status-code table.
- A ghost trace of the requests made (`calls`) lets the contracts say who was asked, in which order and with what.
- The provider is a class with the source's fields. Its methods are proved against value-level specification functions:
  - `GetTemplateSpec` specifies `getTemplate`;
  - `Resolve` specifies `getMapConfig`, with `FromTemplate`/`FromApiKey`/`Finish` for its stages;
  - `AffectedTablesLookup` specifies `getAffectedTables`.
- The lemmas state the properties of those functions.
- Renderer parameters, `res.locals.db` and the counters are objects updated in place (`Js.JsObject`, `MapController.StatsClient`).

Files:
- `wrappers.dfy`: Option/Result.
- `text.dfy`: the string built-ins used.
- `js.dfy`: JavaScript values and semantics.
- `cache_keys.dfy`: keys.
- `named_map_provider.dfy`: the provider.
- `style_errors.dfy`: the style-error regular expression.
- `map_controller.dfy`: the controller.
- `db_conn_setup.dfy`: the middleware.

Where this description and the code could be read differently, the model follows the code:
- A failure of the render-limits request (the last stage) leaves **both** the error and the map configuration stored. `mapConfig` is assigned before that request. Earlier failures store no map configuration (`FailureIsMemoised`).
- `configHash({})` is not `''`: an empty object is truthy, so it is hashed (`CacheKeys.ConfigHash`).
- A missing `format` parameter is interpolated as the text `undefined` in the full key (`CacheKeys.KeysWithoutParams`).
- A map with a single layer, no `affected_tables` and an undefined or empty `sql` joins to `''`. It is answered with nothing: no connection, no query and no cache entry (`NamedMapProvider.NoQueryWhen`).
- The analysis configuration takes its database password from `rendererParams.dbpassword`. `setDBParams` writes `dbpass`, so that value is whatever the caller's parameters carried (`NamedMapProvider.AnalysisPasswordComesFromRequest`).
- Render limits are requested with the request's `api_key` parameter, not with the key fetched from the metadata backend (`NamedMapProvider.ResolveLastRequest`).
- `assert.ifError(err)` is taken to rethrow `err` itself, so the next step receives the same error.

## Model

| member | source | states |
|---|---|---|
| Text.IndexOf | lib/cartodb/middleware/context/db-conn-setup.js:10 | `indexOf` is the first occurrence of the substring, and -1 exactly when there is none |
| Text.ReplaceFirst | lib/cartodb/controllers/map.js:176 | `replace('.', '_')` changes only the first `.`; the length and every other character stay |
| Text.BeforeFirst | lib/cartodb/controllers/map.js:115 | `split(';')[0]` is a prefix without `;` that is either the whole string or stops at the first `;` |
| Text.JoinStringsEmpty | lib/cartodb/models/mapconfig/provider/named-map-provider.js:297-299 | a join with a non-empty separator is empty exactly for no parts or one empty part |
| Js.Or | lib/cartodb/models/mapconfig/provider/named-map-provider.js:133-136 | `a \|\| b` is one of its operands and is truthy exactly when one of them is |
| Js.ArrayJoinEmpty | lib/cartodb/models/mapconfig/provider/named-map-provider.js:297-299 | `queries.join(';')` is `''` exactly for no queries or one query rendering as `''` |
| Js.ArrayJoin | lib/cartodb/models/mapconfig/provider/named-map-provider.js:297 | `queries.join(';')`: nothing joined gives `''`, one element gives its rendering (undefined and null as `''`), and with two or more the first element and the separator come first |
| Js.Defaults | lib/cartodb/middleware/context/db-conn-setup.js:19-24 | `_.defaults` keeps every defined property, fills undefined or missing ones from the defaults, and adds no other keys |
| Js.ErrorText | lib/cartodb/controllers/map.js:53 | the reported text is the error's message when non-empty, the error's name otherwise, `String(v)` for thrown non-objects |
| CacheKeys.ConfigHash | lib/cartodb/models/mapconfig/provider/named-map-provider.js:236-241 | `''` exactly for a falsy config; otherwise the first 8 hex characters of the MD5 digest of its JSON |
| CacheKeys.KeyDefaults | lib/cartodb/models/mapconfig/provider/named-map-provider.js:224-232 | the default values: empty dbname and layer, scale factor 1, the owner, the template name, the token or `''`, the hash; no format |
| CacheKeys.KeyValues | lib/cartodb/models/mapconfig/provider/named-map-provider.js:224-232 | every defined request parameter wins over the default of the same name; `format` is the request's |
| CacheKeys.BaseKey | lib/cartodb/models/mapconfig/provider/named-map-provider.js:217 | the base key is `dbname`, `owner` and `templateName` in that order, each as its text, separated by exactly two `:` |
| CacheKeys.FullKey | lib/cartodb/models/mapconfig/provider/named-map-provider.js:216-218 | the full key starts with the base key followed by `:`; the layout of its eight fields and their separation are stated by KeyTextSeparates and FullKeySeparatesFields |
| CacheKeys.CreateKey | lib/cartodb/models/mapconfig/provider/named-map-provider.js:223-234 | `createKey(true)` is the base key; `createKey(false)` strictly extends it |
| CacheKeys.Filter | lib/cartodb/models/mapconfig/provider/named-map-provider.js:211-214 | a key is kept exactly when it is non-empty and starts with the base key |
| CacheKeys.FilterKeepsOwnFullKey | lib/cartodb/models/mapconfig/provider/named-map-provider.js:192-194 | a provider's filter keeps its own full key |
| CacheKeys.BaseKeyWithoutParams | lib/cartodb/models/mapconfig/provider/named-map-provider.js:217-233 | without request parameters the base key is `:owner:templateName` |
| CacheKeys.FieldsWithoutParams | lib/cartodb/models/mapconfig/provider/named-map-provider.js:224-232 | without request parameters: empty dbname and layer, the owner, the template, the token, the hash, `undefined` for the format, `1` for the scale factor |
| CacheKeys.KeysWithoutParams | lib/cartodb/models/mapconfig/provider/named-map-provider.js:216-234 | without request parameters the keys are `:owner:template` and `:owner:template:token:hash:undefined::1` |
| CacheKeys.MiddleDiffers | lib/cartodb/models/mapconfig/provider/named-map-provider.js:218 | strings that differ only in one interpolated part differ |
| CacheKeys.ConfigHashSeparatesFullKeys | lib/cartodb/models/mapconfig/provider/named-map-provider.js:218-241 | two different config hashes give two different full keys for the same request |
| CacheKeys.KeyTextSeparates | lib/cartodb/models/mapconfig/provider/named-map-provider.js:217-218 | two lists of eight field texts that differ in exactly one field are laid out as two different keys |
| CacheKeys.FullKeySeparatesFields | lib/cartodb/models/mapconfig/provider/named-map-provider.js:217-218 | two parameter sets whose interpolated fields read the same except one (`dbname`, `owner`, `templateName`, `authToken`, `configHash`, `format`, `layer` or `scale_factor`) get different full keys |
| CacheKeys.ColonInNamesCollides | lib/cartodb/models/mapconfig/provider/named-map-provider.js:217 | the unescaped `:` lets owner `a:b` with template `c` share a base key with owner `a` and template `b:c`, for any `a`, `b`, `c`, although the owners differ |
| NamedMapProvider.FetchTemplate | lib/cartodb/models/mapconfig/provider/named-map-provider.js:149-183 | the template store is asked first; a template is returned only when it exists and the token is authorised |
| NamedMapProvider.TemplateChecks | lib/cartodb/models/mapconfig/provider/named-map-provider.js:153-183 | a store failure is passed on, a missing template is the 404 error after one request, a throwing check is 403 "Failed to authorize", a refusal is 403 "Unauthorized" |
| NamedMapProvider.GetTemplateSpec | lib/cartodb/models/mapconfig/provider/named-map-provider.js:142-190 | a stored error or template is returned as it is; otherwise the fetch's error is stored with no template, or its template with no error, after the fetch's requests; map configuration, renderer parameters and context are unchanged |
| NamedMapProvider.TemplateParams | lib/cartodb/models/mapconfig/provider/named-map-provider.js:86-101 | `{}` for a falsy config, the value itself for a non-string, the parse of a string, and the fixed "malformed config" error when parsing fails |
| NamedMapProvider.WithUserFields | lib/cartodb/models/mapconfig/provider/named-map-provider.js:77-79 | `_.extend({}, params, {user: owner})`: `user` is added and holds the owner; every other parameter is kept and none is added |
| NamedMapProvider.WithDatabaseParamsFields | lib/cartodb/models/mapconfig/provider/named-map-provider.js:251-255 | `setDBParams` on success: `dbuser`, `dbpass`, `dbhost`, `dbport` and `dbname` hold the owner's database parameters; every other parameter is kept and none is added |
| NamedMapProvider.AnalysisConfigurationOf | lib/cartodb/models/mapconfig/provider/named-map-provider.js:109-122 | the analysis user and the batch user are the owner and the batch key is the fetched API key; host, port, database name and user come from the renderer parameters, and the password from their `dbpassword` |
| NamedMapProvider.Finish | lib/cartodb/models/mapconfig/provider/named-map-provider.js:130-138 | the error and the renderer parameters are stored; the map configuration is `new MapConfig(document, context.datasource)` exactly when the adapter produced a document; the context is kept with `limits = renderLimits \|\| {}`; `analysesResults \|\| []` is stored; the template is untouched |
| NamedMapProvider.Settle | lib/cartodb/models/mapconfig/provider/named-map-provider.js:130-138 | storing a stage outcome leaves the session resolved and well formed, with the new requests appended |
| NamedMapProvider.Resolve | lib/cartodb/models/mapconfig/provider/named-map-provider.js:56-140 | a resolved session is returned unchanged; otherwise the session ends resolved, well formed, with the earlier requests kept |
| NamedMapProvider.FromTemplate | lib/cartodb/models/mapconfig/provider/named-map-provider.js:73-85 | without an error the run produced a map configuration document |
| NamedMapProvider.FromApiKey | lib/cartodb/models/mapconfig/provider/named-map-provider.js:86-129 | without an error the run produced a document; the renderer parameters are passed through unchanged |
| NamedMapProvider.TableProbes | lib/cartodb/models/mapconfig/provider/named-map-provider.js:290-294 | one `SELECT * FROM t LIMIT 0` per affected table, in order |
| NamedMapProvider.QueriesOf | lib/cartodb/models/mapconfig/provider/named-map-provider.js:288-295 | a layer contributes its `sql` first, then one probe per affected table |
| NamedMapProvider.LayerQueries | lib/cartodb/models/mapconfig/provider/named-map-provider.js:286-295 | at least one query per layer; the exact count, the order and the loop are stated by LayerQueriesCount, LayerQueriesAppend and CollectQueries |
| NamedMapProvider.LayerQueriesAppend | lib/cartodb/models/mapconfig/provider/named-map-provider.js:288-295 | the queries of concatenated layers are the concatenated queries: layer order is kept |
| NamedMapProvider.LayerQueriesCount | lib/cartodb/models/mapconfig/provider/named-map-provider.js:288-295 | one query per layer plus one per declared affected table |
| NamedMapProvider.CollectQueries | lib/cartodb/models/mapconfig/provider/named-map-provider.js:286-295 | the `forEach` loop pushes exactly the specified query list |
| NamedMapProvider.NoQueryWhen | lib/cartodb/models/mapconfig/provider/named-map-provider.js:297-301 | the joined sql is empty exactly for no layers, or one layer without affected tables whose sql renders as `''` |
| NamedMapProvider.AffectedTablesLookup | lib/cartodb/models/mapconfig/provider/named-map-provider.js:275-326 | a failed session fails with its error; a cache hit answers without asking anyone; a failure caches nothing; the only cache change is storing a successful answer under its key; the connection is asked first; on a miss an empty join answers nothing, a failed connection is passed on after one request, and otherwise the joined sql is queried on the connection, its error passed on with the cache untouched, or its tables returned and stored under `(rendererParams, mapConfig.id())` |
| NamedMapProvider.EmptyQueryCachesNothing | lib/cartodb/models/mapconfig/provider/named-map-provider.js:297-301 | an empty query answers nothing, asks nobody and caches nothing |
| NamedMapProvider.ApiKeyStageFacts | lib/cartodb/models/mapconfig/provider/named-map-provider.js:125-129 | a document is kept exactly when the last request was the render-limits request, made with the request's `api_key` |
| NamedMapProvider.TemplateStageFacts | lib/cartodb/models/mapconfig/provider/named-map-provider.js:73-129 | the stages after the template always ask someone, and the same last-request fact holds |
| NamedMapProvider.ResolveLastRequest | lib/cartodb/models/mapconfig/provider/named-map-provider.js:56-140 | an unresolved run asks at least one collaborator; it stores a map configuration exactly when its last request was for render limits with the request's `api_key` |
| NamedMapProvider.MissingTemplateFails | lib/cartodb/models/mapconfig/provider/named-map-provider.js:155-161 | a missing template gives the 404 "Template '…' of user '…' not found" error after one request, with nothing else stored |
| NamedMapProvider.FailureIsMemoised | lib/cartodb/models/mapconfig/provider/named-map-provider.js:57-59 | on failure the limits are `{}` and a map configuration is kept only after the limits request; resolving again changes nothing |
| NamedMapProvider.FailureIsFirstStageError | lib/cartodb/models/mapconfig/provider/named-map-provider.js:56-140 | a resolution stores the error of the first failing stage, passed on as it is: the template fetch and its checks, then `getDatabaseParams`, `getUserMapKey`, the malformed-config error, `instance`, the adapter and the render limits; no error exactly when all of them succeed |
| NamedMapProvider.TemplateStageError | lib/cartodb/models/mapconfig/provider/named-map-provider.js:73-85 | the stored error is the connection's, else the metadata backend's, else the one the later stages store |
| NamedMapProvider.ApiKeyStageError | lib/cartodb/models/mapconfig/provider/named-map-provider.js:86-129 | the stored error is the malformed-config error, else that of the first failing of `instance`, the adapter and the limits lookup; none when all succeed |
| NamedMapProvider.SuccessShape | lib/cartodb/models/mapconfig/provider/named-map-provider.js:73-138 | on success: the renderer parameters are the caller's plus `user` and the five database fields; the context holds the parsed template parameters and `limits \|\| {}`; the template is the one stored before or the one the fetch returned |
| NamedMapProvider.SuccessMapConfig | lib/cartodb/models/mapconfig/provider/named-map-provider.js:102-133 | on success the stored map configuration is `new MapConfig` of the adapter's document for `instance(template, templateParams)`, run with the renderer parameters and a context holding the template parameters and the analysis configuration from the fetched API key |
| NamedMapProvider.RendererParamsFields | lib/cartodb/models/mapconfig/provider/named-map-provider.js:77-79 | the renderer parameters' keys and values: `user` is the owner, the five database fields come from the database, every other property is the caller's |
| NamedMapProvider.ApiKeyStageAnalysis | lib/cartodb/models/mapconfig/provider/named-map-provider.js:107-122 | the analysis configuration is built from the renderer parameters and the fetched API key |
| NamedMapProvider.TemplateStageParams | lib/cartodb/models/mapconfig/provider/named-map-provider.js:77-116 | after the template: caller properties other than `user` and the database fields are kept, and the analysis password is the caller's `dbpassword` |
| NamedMapProvider.AnalysisPasswordComesFromRequest | lib/cartodb/models/mapconfig/provider/named-map-provider.js:109-117 | the same for a whole resolution: the analysis database password is the caller's `dbpassword`, never `dbpass` from the database |
| NamedMapProvider.AffectedTablesCache.Set | lib/cartodb/models/mapconfig/provider/named-map-provider.js:323 | storing an answer changes exactly that key of the shared cache |
| NamedMapProvider.Provider.constructor | lib/cartodb/models/mapconfig/provider/named-map-provider.js:14-52 | every field is initialised as the source does, with the module-level `templateName(templateId)` (line 7) as the name (`getTemplateName`, lines 261-263, returns it); the session starts unresolved |
| NamedMapProvider.Provider.GetTemplate | lib/cartodb/models/mapconfig/provider/named-map-provider.js:142-190 | the new state is `GetTemplateSpec` of the old one; it returns the stored error and template |
| NamedMapProvider.Provider.SetDBParams | lib/cartodb/models/mapconfig/provider/named-map-provider.js:245-259 | on a lookup failure the error is returned and the target is untouched; otherwise the five database fields are written |
| NamedMapProvider.Provider.CacheAndReturn | lib/cartodb/models/mapconfig/provider/named-map-provider.js:130-138 | the new state is `Finish` of the old one; the renderer-parameters object is the one given |
| NamedMapProvider.Provider.GetMapConfig | lib/cartodb/models/mapconfig/provider/named-map-provider.js:56-140 | the new state is `Resolve` of the old one; a resolved session changes nothing; the caller's parameters object is never written |
| NamedMapProvider.Provider.RunWithTemplate | lib/cartodb/models/mapconfig/provider/named-map-provider.js:73-85 | the new state is the settled `FromTemplate` outcome, in a fresh renderer-parameters object |
| NamedMapProvider.Provider.RunWithApiKey | lib/cartodb/models/mapconfig/provider/named-map-provider.js:86-138 | the new state is the settled `FromApiKey` outcome |
| NamedMapProvider.Provider.Reset | lib/cartodb/models/mapconfig/provider/named-map-provider.js:200-209 | template, affected tables, error and map configuration are cleared and a new cache buster is taken; everything else stays, and the session is unresolved |
| NamedMapProvider.Provider.GetCacheBuster | lib/cartodb/models/mapconfig/provider/named-map-provider.js:196-198 | the cache buster set at construction or by the last reset |
| NamedMapProvider.Provider.CreateKey | lib/cartodb/models/mapconfig/provider/named-map-provider.js:223-234 | the key starts with the base key, and equals it exactly when the base key was asked for |
| NamedMapProvider.Provider.GetKey | lib/cartodb/models/mapconfig/provider/named-map-provider.js:192-194 | the full key passes the provider's own filter and differs from the base key |
| NamedMapProvider.Provider.Filter | lib/cartodb/models/mapconfig/provider/named-map-provider.js:211-214 | a key is kept exactly when it is non-empty and starts with the base key |
| NamedMapProvider.Provider.GetAffectedTables | lib/cartodb/models/mapconfig/provider/named-map-provider.js:265-328 | the session is resolved as `GetMapConfig` does; the result, the shared cache and the requests made are those of `AffectedTablesLookup`; `params`, `cacheBuster` and `affectedTables` stay as they were |
| NamedMapProvider.Provider.LookupAffectedTables | lib/cartodb/models/mapconfig/provider/named-map-provider.js:275-326 | after a settled session, the result, the shared cache and the new requests are those of `AffectedTablesLookup`; nothing else of the provider changes |
| StyleErrors.DigitRun | lib/cartodb/controllers/map.js:188 | the length of the run of digits at a position |
| StyleErrors.FirstTag | lib/cartodb/controllers/map.js:188 | the first position where a style tag ends, and that no earlier one does |
| StyleErrors.LineStart | lib/cartodb/controllers/map.js:188 | the start of the line around a position: `.` cannot cross a line terminator |
| StyleErrors.LineEnd | lib/cartodb/controllers/map.js:188 | the end of the line around a position |
| StyleErrors.LastTag | lib/cartodb/controllers/map.js:188 | the last tag end in a range, found greedily |
| StyleErrors.MatchStyleError | lib/cartodb/controllers/map.js:188 | a returned match is a match of `(.*) in style 'layer([0-9]+)'` |
| StyleErrors.TagAtIsTail | lib/cartodb/controllers/map.js:188 | a tag ending at a position fixes its digit group |
| StyleErrors.MatchIsLeftmostGreedy | lib/cartodb/controllers/map.js:188 | there is no match exactly when the regular expression matches nowhere; otherwise the match is the one JavaScript picks (leftmost start, greedy `.*`, greedy digits) |
| StyleErrors.Rewritten | lib/cartodb/controllers/map.js:190 | the rewrite is `style`, then the layer's digits, then `: `, then exactly the first group (the text before the tag on its line) |
| StyleErrors.RewriteStyleError | lib/cartodb/controllers/map.js:187-191 | the message is either kept or replaced by a strictly shorter text starting with `style`; which one is stated by RewriteFollowsPreferredMatch |
| StyleErrors.RewriteFollowsPreferredMatch | lib/cartodb/controllers/map.js:187-191 | a message without a match is unchanged; with one, it is rewritten from the match JavaScript picks |
| StyleErrors.RewriteNamesTheLayer | lib/cartodb/controllers/map.js:187-191 | a one-line `problem in style 'layerN'` becomes `styleN: problem` |
| StyleErrors.RewriteKeepsOneLine | lib/cartodb/controllers/map.js:187-191 | for a message whose last line carries the tag, only that line survives: `styleN: problem` |
| MapController.FormatStat | lib/cartodb/controllers/map.js:167-180 | the label is a supported format or `invalid`; it is the format with its first `.` made `_` exactly when that is supported |
| MapController.FormatStatAsWritten | lib/cartodb/controllers/map.js:174-180 | the label as written: a supported format, the name of an `Object.prototype` property, or `invalid` (the as-written half of the Finding) |
| MapController.FormatStatAsWrittenLeaksPrototype | lib/cartodb/controllers/map.js:177 | as written, format `constructor` is labelled `constructor`; the corrected label is `invalid` |
| MapController.FormatStatAgreesOffPrototype | lib/cartodb/controllers/map.js:167-180 | off the inherited property names, the label as written and the corrected one agree |
| MapController.ErrorTextChoice | lib/cartodb/controllers/map.js:184 | the error text is `'' + err.message` when that is truthy and `'' + err` otherwise |
| MapController.TileErrorText | lib/cartodb/controllers/map.js:184-191 | the tile error text is the error text, or a strictly shorter `style…` rewrite of it |
| MapController.TileErrorTextOfStyleError | lib/cartodb/controllers/map.js:184-191 | an Error whose message ends with a style tag is reported as `styleN: problem` |
| MapController.TileErrorTextWithoutTag | lib/cartodb/controllers/map.js:184-191 | a message without a tag is reported as it is |
| MapController.Bump | lib/cartodb/controllers/map.js:194-199 | an increment adds one to that counter and leaves every other counter as it was |
| MapController.TileCounterNames | lib/cartodb/controllers/map.js:194-199 | a tile request bumps two distinct counters |
| MapController.TileCounts | lib/cartodb/controllers/map.js:174-199 | only the two counters of the outcome and the format label can be added; the increments themselves are stated by TileCountsEffect |
| MapController.TileCountsEffect | lib/cartodb/controllers/map.js:194-199 | the overall counter and the labelled counter of the outcome each go up by one, and nothing else changes |
| MapController.StatsClient.Increment | lib/cartodb/controllers/map.js:194 | the counter is incremented in place |
| MapController.FinalizeGetTileOrGrid | lib/cartodb/controllers/map.js:166-201 | an error gives `{errors: [tile error text]}` with the status from `findStatusCode` under `TILE RENDER`; a success sends the tile with status 200 and its headers; the counters move as `TileCounts` says |
| MapController.TileOrLayer | lib/cartodb/controllers/map.js:137-162 | a `req2params` failure skips the backend and is reported; otherwise the backend's error or tile is; the counters move once |
| MapController.Layer | lib/cartodb/controllers/map.js:129-135 | token `static` is passed on with no counter changed; any other token gets exactly `TileOrLayer`'s reply (the setup error, the backend's error, or the tile with its headers and status 200) and its counters |
| MapController.PrepareGetConfig | lib/cartodb/controllers/map.js:100-106 | a falsy `config` is refused with the fixed error; any other is parsed |
| MapController.PreparePostConfig | lib/cartodb/controllers/map.js:113-119 | the body is accepted exactly when a content type is present and its media type is exactly `application/json`; otherwise the fixed error |
| MapController.MediaTypeParametersIgnored | lib/cartodb/controllers/map.js:115 | parameters after `application/json;` do not matter |
| MapController.PostContentTypesRefused | lib/cartodb/controllers/map.js:115-116 | a missing, empty, other or differently cased content type is refused |
| MapController.LayergroupError | lib/cartodb/controllers/map.js:86-89 | an error reply for `GET LAYERGROUP` with the status `findStatusCode` gives; the body is `{errors: [err.message]}`, which is undefined for a non-object thrown value |
| MapController.Create | lib/cartodb/controllers/map.js:64-95 | the first failure among setup, preparation and creation is reported under `GET LAYERGROUP`; without one the layergroup is sent with status 200 |
| MapController.CreateGetNeedsConfig | lib/cartodb/controllers/map.js:97-107 | a GET without `config` is refused whatever the backend would do |
| MapController.CreatePostNeedsJson | lib/cartodb/controllers/map.js:110-120 | a POST not declared as JSON is refused whatever the backend would do |
| MapController.AttributesError | lib/cartodb/controllers/map.js:51-55 | an error reply for `GET ATTRIBUTES` with the status `findStatusCode` gives; the body holds the error's message, or its name when the message is empty, or `String(err)` for a thrown primitive |
| MapController.Attributes | lib/cartodb/controllers/map.js:32-62 | a setup or lookup failure is reported with its error text under `GET ATTRIBUTES`; otherwise the attributes are sent with status 200 |
| DbConnSetup.ConnectionDefaults | lib/cartodb/middleware/context/db-conn-setup.js:19-24 | the defaults cover exactly the four connection fields |
| DbConnSetup.TagNotFound | lib/cartodb/middleware/context/db-conn-setup.js:9-12 | an error whose message contains `name not found` gets status 404; any other error is unchanged; name and message are kept |
| DbConnSetup.FilledConnection | lib/cartodb/middleware/context/db-conn-setup.js:17-24 | each of the four fields the lookup left undefined takes the server's setting; every value the lookup set is kept, including `dbname`; no other key is added |
| DbConnSetup.Handle | lib/cartodb/middleware/context/db-conn-setup.js:3-31 | `res.locals.db` is a new object; on failure it holds the lookup's writes and the tagged error is passed on; on success it holds the filled connection and `next(null)` is called |
| DbConnSetup.TagNotFoundExamples | lib/cartodb/middleware/context/db-conn-setup.js:10-11 | "name not found" is tagged 404; a refused connection keeps its status |

## Left out

- The asynchronous step machinery (`step`), the profiler, logging (`console.error`) and the HTTP transport are left out. The replies are values (`MapController.Reply`), and the steps are sequential code.
- I/O and libraries are parameters of the model:
  - `Date.now()` is a parameter (`now`).
  - `JSON.parse`, `JSON.stringify`, MD5 (as a hex digest), `MapConfig.prototype.id` and the table-introspection query are parameters.
  - The template store, the postgres connection, the metadata backend, the limits API, the configuration adapter, `req2params`, the rendering backend and `findStatusCode` are total functions of their arguments. Template storage, validation and instancing are not part of this model.
- The configuration adapter is assumed to write only `datasource` and `analysesResults` into the context, and not to mutate the renderer parameters.
- Numbers are integers; floating-point values and their string forms are not modelled.
- `MapController.FinalizeGetTileOrGrid`: counts a format that names an `Object.prototype` property (`constructor`, `toString`, `__proto__`, …) under `windshaft.tiles.invalid.*`, where the code as written counts it under its own name; the label is the corrected `FormatStat` (see Findings), and `TileCounts`, `MapController.TileOrLayer` and `MapController.Layer` inherit it. For every other format the two agree (`FormatStatAgreesOffPrototype`).
- `CacheKeys.Filter`: the same prefix reading of the regular expression as `NamedMapProvider.Provider.Filter`.
- `NamedMapProvider.Provider.Filter`: the source builds a regular expression from the unescaped base key. The model treats it as a prefix test, so keys whose base key holds regular-expression characters are not modelled.
- `NamedMapProvider.Provider.GetAffectedTables`: the provider's own `affectedTables` field is cleared by `reset` but never assigned. Concurrent callers sharing the process-wide cache are not modelled.
- `NamedMapProvider.CacheKeyOf`: the affected-tables cache is keyed on the value of the renderer parameters; the source passes the `rendererParams` object itself to a cache class that is not part of this model, which is assumed to key on its contents.
- Collaborator errors in the provider and the middleware are `Error` objects (`Js.ErrorObject`); a falsy or non-`Error` value passed as a callback error is not modelled there.
- `MapController.FinalizeGetTileOrGrid`, `MapController.TileOrLayer`, `MapController.Layer`, `MapController.Create` and `MapController.Attributes` take only errors that `if (err)` notices (`Js.TruthyThrown`: an `Error` object or a truthy value). A falsy value passed as an error (`false`, `0`, `''`, `null`) is not modelled; the code would treat it as no error at `if (err)`, and `assert.ifError` treats it differently across Node versions.
- `DbConnSetup.TagNotFound`: `http_status` is set on a copy of the error value, not on the shared object. Aliasing of the error object is not captured.
- The order of requests is stated through the `calls` trace, and only as far as the lemmas above go. There is no timing or interleaving.
- `MapController.TileOrLayer`: the final step's own error logging (`finish`) is left out, because it only writes to the console.
- The route registration (`register`) and `tile` are left out. `tile` only starts a profiler and calls `tileOrLayer`, which is modelled.

## Findings

| source | as written | input that shows it | evidently intended | confidence | as-written member | corrected member |
|---|---|---|---|---|---|---|
| lib/cartodb/controllers/map.js:177 | `supportedFormats[format]` is looked up on an object literal, so names inherited from `Object.prototype` count as supported | format `constructor` is counted under `windshaft.tiles.constructor.success` | only `grid_json`, `json_torque`, `torque_json` and `png` get a label of their own; every other format is `invalid` | not executed | MapController.FormatStatAsWrittenLeaksPrototype | MapController.FormatStat |

=== FILE: cache_keys.dfy ===
/** Cache keys of a named-map resolution (named-map-provider.js, `createKey`,
    `configHash`, `filter`). The key text is the interpolation of a value bag
    built with `_.defaults({}, params, defaults)` into two fixed templates:
      base  `dbname:owner:templateName`
      full  `base:authToken:configHash:format:layer:scale_factor`
    MD5 and `JSON.stringify` are parameters. */
module CacheKeys {
  import opened Js
  import Text

  predicate IsHexChar(c: char)
  {
    '0' <= c <= '9' || 'a' <= c <= 'f'
  }

  /** What `digest('hex')` of an MD5 hash yields: 32 lower-case hex characters. */
  type HexDigest = s: string | |s| == 32 && forall i :: 0 <= i < |s| ==> IsHexChar(s[i])
    witness "00000000000000000000000000000000"

  /** `configHash(config)`: '' for a falsy config, otherwise the first eight
      characters of the hex MD5 digest of `JSON.stringify(config)`. An empty
      object is truthy and so gets a hash. */
  function ConfigHash(config: JsValue, stringify: JsValue -> string, md5Hex: string -> HexDigest): (r: string)
    ensures r == "" <==> !Truthy(config)
    ensures Truthy(config) ==> |r| == 8 && r <= md5Hex(stringify(config))
    ensures forall i :: 0 <= i < |r| ==> IsHexChar(r[i])
  {
    if !Truthy(config) then "" else md5Hex(stringify(config))[..8]
  }

  /** The defaults `createKey` passes to `_.defaults`. */
  function KeyDefaults(owner: string, templateName: string, authToken: JsValue, configHash: string): (d: Params)
    ensures Get(d, "dbname") == Str("") && Get(d, "layer") == Str("") && Get(d, "scale_factor") == Num(1)
    ensures Get(d, "owner") == Str(owner) && Get(d, "templateName") == Str(templateName)
    ensures Get(d, "authToken") == Or(authToken, Str("")) && Get(d, "configHash") == Str(configHash)
    ensures Get(d, "format") == Undefined
  {
    map[
      "dbname" := Str(""),
      "owner" := Str(owner),
      "templateName" := Str(templateName),
      "authToken" := Or(authToken, Str("")),
      "configHash" := Str(configHash),
      "layer" := Str(""),
      "scale_factor" := Num(1)
    ]
  }

  /** The interpolated values: every property of `params` that is not
      undefined wins over the default of the same name; `format` has no
      default. */
  function KeyValues(params: Params, owner: string, templateName: string, authToken: JsValue, configHash: string): (v: Params)
    ensures forall k :: Get(params, k) != Undefined ==> Get(v, k) == Get(params, k)
    ensures forall k :: Get(params, k) == Undefined ==> Get(v, k) == Get(KeyDefaults(owner, templateName, authToken, configHash), k)
    ensures Get(v, "format") == Get(params, "format")
  {
    Defaults(params, KeyDefaults(owner, templateName, authToken, configHash))
  }

  /** `{{=it.k}}`: the string form of the value, "undefined" when missing. */
  function Field(v: Params, k: string): string
  {
    ToString(Get(v, k))
  }

  /** The base key `dbname:owner:templateName`. */
  function BaseKey(v: Params): (r: string)
    ensures var db, owner, name := Field(v, "dbname"), Field(v, "owner"), Field(v, "templateName");
      && |r| == |db| + |owner| + |name| + 2
      && r[..|db|] == db && r[|db|] == ':'
      && r[|db| + 1..|db| + 1 + |owner|] == owner && r[|db| + 1 + |owner|] == ':'
      && r[|db| + 2 + |owner|..] == name
  {
    Field(v, "dbname") + ":" + Field(v, "owner") + ":" + Field(v, "templateName")
  }

  /** The full key; it always starts with the base key and a ':'. */
  function FullKey(v: Params): (r: string)
    ensures BaseKey(v) + ":" <= r
  {
    BaseKey(v) + ":" + Field(v, "authToken") + ":" + Field(v, "configHash") + KeyTail(v)
  }

  /** The part of the full key after the config hash. */
  function KeyTail(v: Params): string
  {
    ":" + Field(v, "format") + ":" + Field(v, "layer") + ":" + Field(v, "scale_factor")
  }

  /** `createKey(base)`. */
  function CreateKey(v: Params, base: bool): (r: string)
    ensures BaseKey(v) <= r
    ensures base ==> r == BaseKey(v)
    ensures !base ==> |r| > |BaseKey(v)|
  {
    if base then BaseKey(v) else FullKey(v)
  }

  /** `filter(key)`, with the regular expression `'^' + baseKey + '.*'` read as
      a prefix test: a key is kept when it is non-empty and starts with the
      base key. */
  function Filter(key: string, baseKey: string): (r: bool)
    ensures r ==> key != "" && |baseKey| <= |key| && key[..|baseKey|] == baseKey
    ensures key != "" && baseKey <= key ==> r
  {
    key != "" && baseKey <= key
  }

  /** A provider's filter keeps that provider's own full key. */
  lemma FilterKeepsOwnFullKey(v: Params)
    ensures Filter(FullKey(v), CreateKey(v, true))
  {
  }

  /** Without request parameters the base key is `:owner:templateName`. */
  lemma {:induction false} BaseKeyWithoutParams(owner: string, templateName: string, authToken: JsValue, configHash: string)
    ensures BaseKey(KeyValues(map[], owner, templateName, authToken, configHash)) == ":" + owner + ":" + templateName
  {
    var v := KeyValues(map[], owner, templateName, authToken, configHash);
    assert Field(v, "dbname") == "" && Field(v, "owner") == owner && Field(v, "templateName") == templateName;
  }

  /** The interpolated text of each field when the request has no
      parameters. */
  lemma {:induction false} FieldsWithoutParams(owner: string, templateName: string, authToken: string, configHash: string)
    ensures var v := KeyValues(map[], owner, templateName, Str(authToken), configHash);
      && Field(v, "dbname") == "" && Field(v, "owner") == owner && Field(v, "templateName") == templateName
      && Field(v, "authToken") == authToken && Field(v, "configHash") == configHash
      && Field(v, "format") == "undefined" && Field(v, "layer") == "" && Field(v, "scale_factor") == "1"
  {
    var v := KeyValues(map[], owner, templateName, Str(authToken), configHash);
    assert Get(v, "scale_factor") == Num(1);
    assert Field(v, "scale_factor") == "1" by {
      assert Text.NatToString(1) == [Text.DigitChar(1)];
    }
    assert Field(v, "authToken") == authToken by {
      if authToken == "" {
        assert Or(Str(authToken), Str("")) == Str("");
      }
    }
  }

  /** With no request parameters the base key starts with an empty database
      name, and the full key carries the literal "undefined" for the missing
      format, empty layer and scale factor 1. */
  lemma {:induction false} KeysWithoutParams(owner: string, templateName: string, authToken: string, configHash: string)
    ensures var v := KeyValues(map[], owner, templateName, Str(authToken), configHash);
      && BaseKey(v) == ":" + owner + ":" + templateName
      && FullKey(v) == ":" + owner + ":" + templateName + ":" + authToken + ":" + configHash + ":undefined::1"
  {
    FieldsWithoutParams(owner, templateName, authToken, configHash);
  }

  /** Strings that agree around a differing middle part differ. */
  lemma MiddleDiffers(p: string, x: string, y: string, s: string)
    requires x != y
    ensures p + x + s != p + y + s
  {
    if |x| == |y| {
      var i :| 0 <= i < |x| && x[i] != y[i];
      assert (p + x + s)[|p| + i] == x[i];
      assert (p + y + s)[|p| + i] == y[i];
    }
  }

  /** Holding the request parameters, owner, template and token fixed, two
      different config hashes give two different full keys (unless the
      request itself sets `configHash`). */
  lemma {:induction false} ConfigHashSeparatesFullKeys(params: Params, owner: string, templateName: string,
                                                       authToken: JsValue, h1: string, h2: string)
    requires Get(params, "configHash") == Undefined
    requires h1 != h2
    ensures FullKey(KeyValues(params, owner, templateName, authToken, h1))
         != FullKey(KeyValues(params, owner, templateName, authToken, h2))
  {
    var v1 := KeyValues(params, owner, templateName, authToken, h1);
    var v2 := KeyValues(params, owner, templateName, authToken, h2);
    assert Get(v1, "dbname") == Get(v2, "dbname");
    assert Get(v1, "owner") == Get(v2, "owner");
    assert Get(v1, "templateName") == Get(v2, "templateName");
    assert Get(v1, "authToken") == Get(v2, "authToken");
    assert Get(v1, "format") == Get(v2, "format");
    assert Get(v1, "layer") == Get(v2, "layer");
    assert Get(v1, "scale_factor") == Get(v2, "scale_factor");
    assert Field(v1, "configHash") == h1 && Field(v2, "configHash") == h2;
    var p := BaseKey(v1) + ":" + Field(v1, "authToken") + ":";
    assert p == BaseKey(v2) + ":" + Field(v2, "authToken") + ":";
    assert KeyTail(v1) == KeyTail(v2);
    MiddleDiffers(p, h1, h2, KeyTail(v1));
  }

  /** The fields the full key interpolates, in the order it holds them. */
  const KeyFields: seq<string> :=
    ["dbname", "owner", "templateName", "authToken", "configHash", "format", "layer", "scale_factor"]

  /** The interpolated texts of the key fields, in order. */
  function FieldTexts(v: Params): (p: seq<string>)
    ensures |p| == |KeyFields| && forall n :: 0 <= n < |p| ==> p[n] == Field(v, KeyFields[n])
  {
    [Field(v, "dbname"), Field(v, "owner"), Field(v, "templateName"), Field(v, "authToken"),
     Field(v, "configHash"), Field(v, "format"), Field(v, "layer"), Field(v, "scale_factor")]
  }

  /** Eight field texts laid out as the full key lays them out. */
  function KeyText(p: seq<string>): string
    requires |p| == 8
  {
    (p[0] + ":" + p[1] + ":" + p[2]) + ":" + p[3] + ":" + p[4] + (":" + p[5] + ":" + p[6] + ":" + p[7])
  }

  /** Where the text of field `n` starts in `KeyText(p)`: the texts before
      it, each followed by its ':'. */
  function TextOffset(p: seq<string>, n: nat): nat
    requires |p| == 8 && n < 8
  {
    if n == 0 then 0
    else if n == 1 then |p[0]| + 1
    else if n == 2 then |p[0]| + |p[1]| + 2
    else if n == 3 then |p[0]| + |p[1]| + |p[2]| + 3
    else if n == 4 then |p[0]| + |p[1]| + |p[2]| + |p[3]| + 4
    else if n == 5 then |p[0]| + |p[1]| + |p[2]| + |p[3]| + |p[4]| + 5
    else if n == 6 then |p[0]| + |p[1]| + |p[2]| + |p[3]| + |p[4]| + |p[5]| + 6
    else |p[0]| + |p[1]| + |p[2]| + |p[3]| + |p[4]| + |p[5]| + |p[6]| + 7
  }

  /** The key text holds each field's text at its offset. */
  lemma {:induction false} TextAt(p: seq<string>, n: nat, i: nat)
    requires |p| == 8 && n < 8 && i < |p[n]|
    ensures TextOffset(p, n) + i < |KeyText(p)| && KeyText(p)[TextOffset(p, n) + i] == p[n][i]
  {
    var base := p[0] + ":" + p[1] + ":" + p[2];
    var tail := ":" + p[5] + ":" + p[6] + ":" + p[7];
    if n < 3 {
      assert KeyText(p)[TextOffset(p, n) + i] == base[TextOffset(p, n) + i];
    } else if n >= 5 {
      var middle := base + ":" + p[3] + ":" + p[4];
      assert KeyText(p)[TextOffset(p, n) + i] == tail[TextOffset(p, n) + i - |middle|];
    }
  }

  /** Key texts that differ in exactly one field differ. */
  lemma {:induction false} KeyTextSeparates(p1: seq<string>, p2: seq<string>, n: nat)
    requires |p1| == 8 && |p2| == 8 && n < 8
    requires forall j :: 0 <= j < 8 && j != n ==> p1[j] == p2[j]
    requires p1[n] != p2[n]
    ensures KeyText(p1) != KeyText(p2)
  {
    if |p1[n]| == |p2[n]| {
      var i :| 0 <= i < |p1[n]| && p1[n][i] != p2[n][i];
      assert TextOffset(p1, n) == TextOffset(p2, n);
      TextAt(p1, n, i);
      TextAt(p2, n, i);
    } else {
      assert |KeyText(p1)| - |p1[n]| == |KeyText(p2)| - |p2[n]|;
    }
  }

  /** Two parameter sets whose key fields read the same except for one field
      give different full keys: a request differing only in `layer`,
      `format`, `scale_factor`, the token or any other interpolated field
      gets a key of its own. */
  lemma {:induction false} FullKeySeparatesFields(v1: Params, v2: Params, n: nat)
    requires n < |KeyFields|
    requires forall j :: 0 <= j < |KeyFields| && j != n ==> Field(v1, KeyFields[j]) == Field(v2, KeyFields[j])
    requires Field(v1, KeyFields[n]) != Field(v2, KeyFields[n])
    ensures FullKey(v1) != FullKey(v2)
  {
    var p1, p2 := FieldTexts(v1), FieldTexts(v2);
    assert FullKey(v1) == KeyText(p1);
    assert FullKey(v2) == KeyText(p2);
    KeyTextSeparates(p1, p2, n);
  }

  /** The fields are joined with ':' unescaped, so distinct owner/template
      pairs share a base key: owner `a:b` with template `c`, and owner `a`
      with template `b:c`. */
  lemma {:induction false} ColonInNamesCollides(a: string, b: string, c: string)
    ensures a + ":" + b != a
    ensures BaseKey(KeyValues(map[], a + ":" + b, c, Undefined, "")) == BaseKey(KeyValues(map[], a, b + ":" + c, Undefined, ""))
  {
    assert |a + ":" + b| != |a|;
    assert ":" + (a + ":" + b) + ":" + c == ":" + a + ":" + (b + ":" + c);
    BaseKeyWithoutParams(a + ":" + b, c, Undefined, "");
    BaseKeyWithoutParams(a, b + ":" + c, Undefined, "");
  }
}

=== FILE: db_conn_setup.dfy ===
/** The middleware that prepares a request's database connection
    parameters: `res.locals.db` is reset to an empty object, the connection
    lookup fills it in place, and then either the lookup's error is passed on
    (tagged 404 when the user's database is unknown) or the connection
    fields the lookup left undefined are filled from the server's postgres
    settings. */
module DbConnSetup {
  import opened Wrappers
  import opened Js
  import Text

  /** `global.environment.postgres`: the server-wide connection settings. */
  datatype PostgresSettings = PostgresSettings(user: JsValue, password: JsValue, host: JsValue, port: JsValue)

  /** What `pgConnection.setDBConn(user, db, callback)` does for a user: the
      properties it writes into `db`, and the error it reports, if any. */
  datatype ConnectionLookup = ConnectionLookup(writes: Params, err: Option<ErrorObject>)

  /** The connection lookup of `pgConnection`, an external collaborator. */
  datatype PgConnection = PgConnection(setDBConn: JsValue -> ConnectionLookup)

  const NameNotFound: string := "name not found"

  /** The four connection fields that have server-wide defaults. */
  const DefaultedFields: set<string> := {"dbuser", "dbpassword", "dbhost", "dbport"}

  /** The defaults object handed to `_.defaults`. */
  function ConnectionDefaults(settings: PostgresSettings): (defaults: Params)
    ensures defaults.Keys == DefaultedFields
  {
    map["dbuser" := settings.user, "dbpassword" := settings.password,
        "dbhost" := settings.host, "dbport" := settings.port]
  }

  /** The error passed on for a failed lookup: one whose message contains
      `name not found` gets `http_status` 404, any other keeps its status. */
  function TagNotFound(err: ErrorObject): (tagged: ErrorObject)
    ensures tagged.name == err.name && tagged.message == err.message
    ensures Text.Contains(err.message, NameNotFound) ==> tagged.httpStatus == Some(404)
    ensures !Text.Contains(err.message, NameNotFound) ==> tagged == err
  {
    if err.message != "" && Text.IndexOf(err.message, NameNotFound) != -1 then err.(httpStatus := Some(404))
    else err
  }

  /** The connection parameters after a successful lookup: each defaulted
      field the lookup left undefined takes the server's setting, every
      value the lookup set is kept, and nothing else is added. */
  function FilledConnection(writes: Params, settings: PostgresSettings): (db: Params)
    ensures db.Keys == writes.Keys + DefaultedFields
    ensures forall k :: k in writes && writes[k] != Undefined ==> db[k] == writes[k]
    ensures forall k :: k !in DefaultedFields ==> Get(db, k) == Get(writes, k)
    ensures Get(db, "dbname") == Get(writes, "dbname")
    ensures Get(writes, "dbuser") == Undefined ==> db["dbuser"] == settings.user
    ensures Get(writes, "dbpassword") == Undefined ==> db["dbpassword"] == settings.password
    ensures Get(writes, "dbhost") == Undefined ==> db["dbhost"] == settings.host
    ensures Get(writes, "dbport") == Undefined ==> db["dbport"] == settings.port
  {
    var defaults := ConnectionDefaults(settings);
    assert Get(defaults, "dbname") == Undefined;
    Defaults(writes, defaults)
  }

  /** `res.locals`: the per-response scratch space the middleware writes to. */
  class ResponseLocals {
    var db: JsObject

    constructor (db: JsObject)
      ensures this.db == db
    {
      this.db := db;
    }
  }

  /** The middleware for one request: returns the error `next` is called
      with, `None` for `next(null, req)`. `res.locals.db` is a new object
      holding what the lookup wrote, completed with the defaults on success
      only. */
  method Handle(user: JsValue, pgConnection: PgConnection, settings: PostgresSettings, locals: ResponseLocals)
    returns (next: Option<ErrorObject>)
    modifies locals
    ensures fresh(locals.db)
    ensures var lookup := pgConnection.setDBConn(user);
      lookup.err.Some? ==> next == Some(TagNotFound(lookup.err.value)) && locals.db.props == lookup.writes
    ensures var lookup := pgConnection.setDBConn(user);
      lookup.err.None? ==> next.None? && locals.db.props == FilledConnection(lookup.writes, settings)
  {
    locals.db := new JsObject(map[]);
    var lookup := pgConnection.setDBConn(user);
    locals.db.props := locals.db.props + lookup.writes;
    if lookup.err.Some? {
      next := Some(TagNotFound(lookup.err.value));
      return;
    }
    locals.db.props := Defaults(locals.db.props, ConnectionDefaults(settings));
    next := None;
  }

  /** Which errors are tagged: a message naming an unknown database is, a
      connection failure is not. */
  lemma TagNotFoundExamples()
    ensures TagNotFound(NewError("name not found", None)).httpStatus == Some(404)
    ensures TagNotFound(NewError("refused", Some(500))) == NewError("refused", Some(500))
  {
    assert Text.OccursAt("name not found", NameNotFound, 0);
  }
}

=== FILE: js.dfy ===
/** The JavaScript values the modelled code handles, with the parts of the
    language's semantics it relies on: truthiness, `||`, string conversion,
    `Array.prototype.join`, underscore's `_.defaults`, thrown values and
    `Error.prototype.toString`, and plain objects whose properties are
    updated in place. Numbers are integers here. */
module Js {
  import opened Wrappers
  import Text

  datatype JsValue =
    | Undefined
    | Null
    | Bool(b: bool)
    | Num(n: int)
    | Str(s: string)
    | Arr(items: seq<JsValue>)
    | Obj(props: map<string, JsValue>)

  /** The own properties of a plain object. */
  type Params = map<string, JsValue>

  const EmptyObject: JsValue := Obj(map[])

  /** `!!v`: false exactly for undefined, null, false, 0 and the empty string. */
  predicate Truthy(v: JsValue)
  {
    match v
    case Undefined => false
    case Null => false
    case Bool(b) => b
    case Num(n) => n != 0
    case Str(s) => s != ""
    case Arr(_) => true
    case Obj(_) => true
  }

  /** `a || b`. */
  function Or(a: JsValue, b: JsValue): (r: JsValue)
    ensures Truthy(r) <==> Truthy(a) || Truthy(b)
    ensures r == a || r == b
  {
    if Truthy(a) then a else b
  }

  /** `o[k]` on a plain object: undefined for a missing property. */
  function Get(o: Params, k: string): JsValue
  {
    if k in o then o[k] else Undefined
  }

  /** `String(v)`, which is also what `'' + v` and template interpolation produce. */
  function ToString(v: JsValue): (r: string)
    decreases v, 0
  {
    match v
    case Undefined => "undefined"
    case Null => "null"
    case Bool(b) => if b then "true" else "false"
    case Num(n) => Text.IntToString(n)
    case Str(s) => s
    case Arr(items) =>
      Text.JoinStrings(seq(|items|, i requires 0 <= i < |items| => JoinElement(items[i])), ",")
    case Obj(_) => "[object Object]"
  }

  /** How `Array.prototype.join` renders one element: undefined and null as ''. */
  function JoinElement(v: JsValue): (r: string)
    ensures (v.Undefined? || v.Null?) ==> r == ""
    decreases v, 1
  {
    if v.Undefined? || v.Null? then "" else ToString(v)
  }

  /** `items.join(sep)`. */
  function ArrayJoin(items: seq<JsValue>, sep: string): (r: string)
    ensures |items| == 0 ==> r == ""
    ensures |items| == 1 ==> r == JoinElement(items[0])
    ensures |items| >= 2 ==> JoinElement(items[0]) + sep <= r
  {
    Text.JoinStrings(seq(|items|, i requires 0 <= i < |items| => JoinElement(items[i])), sep)
  }

  /** With a non-empty separator a join is empty only when there is nothing to
      join or a single element that renders as ''. */
  lemma ArrayJoinEmpty(items: seq<JsValue>, sep: string)
    requires sep != ""
    ensures ArrayJoin(items, sep) == "" <==> |items| == 0 || (|items| == 1 && JoinElement(items[0]) == "")
  {
    Text.JoinStringsEmpty(seq(|items|, i requires 0 <= i < |items| => JoinElement(items[i])), sep);
  }

  /** `_.defaults(obj, defs)`: a property of `defs` is copied only where `obj`
      has none or has it set to undefined; everything else of `obj` stays. */
  function Defaults(obj: Params, defs: Params): (r: Params)
    ensures r.Keys == obj.Keys + defs.Keys
    ensures forall k :: k in obj && obj[k] != Undefined ==> r[k] == obj[k]
    ensures forall k :: k in obj && k !in defs ==> r[k] == obj[k]
    ensures forall k :: k in defs && Get(obj, k) == Undefined ==> r[k] == defs[k]
    ensures forall k :: Get(r, k) == if Get(obj, k) != Undefined then Get(obj, k) else Get(defs, k)
  {
    map k | k in obj.Keys + defs.Keys ::
      if k in obj && (obj[k] != Undefined || k !in defs) then obj[k] else defs[k]
  }

  /** Whatever a `throw` or an error-first callback can deliver: an `Error`
      object (with the `http_status` property the modelled code attaches) or
      any other value. */
  datatype Thrown =
    | Error(name: string, message: string, httpStatus: Option<int>)
    | Value(value: JsValue)

  /** The collaborators of the provider and the middleware fail with `Error` objects. */
  type ErrorObject = t: Thrown | t.Error? witness Error("Error", "", None)

  /** An error that `if (err)` notices: every `Error` object, and any other
      value that is truthy. */
  type TruthyThrown = t: Thrown | t.Error? || Truthy(t.value) witness Error("Error", "", None)

  /** `new Error(message)`, optionally with `http_status` set. */
  function NewError(message: string, httpStatus: Option<int>): (e: ErrorObject)
    ensures e.name == "Error" && e.message == message && e.httpStatus == httpStatus
  {
    Error("Error", message, httpStatus)
  }

  /** `err.message`. */
  function MessageOf(t: Thrown): JsValue
  {
    match t
    case Error(_, message, _) => Str(message)
    case Value(Obj(props)) => Get(props, "message")
    case Value(_) => Undefined
  }

  /** `'' + err`: `Error.prototype.toString` for errors, `String` otherwise. */
  function ThrownToString(t: Thrown): string
  {
    match t
    case Error(name, message, _) =>
      if name == "" then message
      else if message == "" then name
      else name + ": " + message
    case Value(v) => ToString(v)
  }

  /** `err.message ? '' + err.message : '' + err`, the text the controllers
      report for a failed request. */
  function ErrorText(t: Thrown): (r: string)
    ensures t.Error? && t.message != "" ==> r == t.message
    ensures t.Error? && t.message == "" ==> r == t.name
    ensures t.Value? && !t.value.Obj? ==> r == ToString(t.value)
  {
    var m := MessageOf(t);
    if Truthy(m) then ToString(m) else ThrownToString(t)
  }

  /** A plain JavaScript object whose properties are written in place. */
  class JsObject {
    var props: Params

    constructor (initial: Params)
      ensures props == initial
    {
      props := initial;
    }
  }
}

=== FILE: map_controller.dfy ===
/** The rules of the map controller that sit around the rendering backend:
    the statistics label of a requested tile format, the text of a tile
    error, the counters a finished tile request increments, the checks that
    decide whether a layergroup request carries a usable configuration, and
    the replies each endpoint sends. The backend, `req2params`, the JSON
    parser and the status-code table are parameters. */
module MapController {
  import opened Wrappers
  import opened Js
  import Text
  import StyleErrors

  /** The formats that are counted under a label of their own. */
  const SupportedFormats: set<string> := {"grid_json", "json_torque", "torque_json", "png"}

  const InvalidFormat: string := "invalid"

  /** What a request handler hands to the response helpers. */
  datatype Reply =
    | ErrorReply(body: JsValue, status: int, operation: string)  // `sendError(res, body, status, operation, err)`
    | Response(body: JsValue, status: int)                   // `sendResponse(res, [body, status])`
    | WithHeaders(body: JsValue, status: int, headers: JsValue)  // `sendWithHeaders(res, body, status, headers)`
    | PassedOn                                               // `next()`: left to the next matching route

  /** `{ errors: items }`. */
  function ErrorsBody(items: seq<JsValue>): JsValue
  {
    Obj(map["errors" := Arr(items)])
  }

  /** The statistics label of a tile request for `format` (`None` when the
      route gave none): the format with its first `.` turned into `_`, if that
      is a supported format, and `invalid` otherwise. */
  function FormatStat(format: Option<string>): (stat: string)
    ensures stat in SupportedFormats || stat == InvalidFormat
    ensures stat != InvalidFormat <==>
      format.Some? && Text.ReplaceFirst(format.value, '.', '_') in SupportedFormats
    ensures stat != InvalidFormat ==> stat == Text.ReplaceFirst(format.value, '.', '_')
  {
    if format.Some? && format.value != "" && Text.ReplaceFirst(format.value, '.', '_') in SupportedFormats
    then Text.ReplaceFirst(format.value, '.', '_')
    else InvalidFormat
  }

  /** The names of the properties every plain JavaScript object inherits from
      `Object.prototype`; all of them are truthy. */
  const ObjectPrototypeMembers: set<string> := {
    "constructor", "hasOwnProperty", "isPrototypeOf", "propertyIsEnumerable",
    "toLocaleString", "toString", "valueOf", "__proto__",
    "__defineGetter__", "__defineSetter__", "__lookupGetter__", "__lookupSetter__"}

  /** The label as `supportedFormats[format]` computes it: the lookup on an
      object literal also finds inherited properties, so their names pass as
      supported formats. */
  function FormatStatAsWritten(format: Option<string>): (stat: string)
    ensures stat in SupportedFormats || stat in ObjectPrototypeMembers || stat == InvalidFormat
  {
    if format.Some? && format.value != "" then
      var f := Text.ReplaceFirst(format.value, '.', '_');
      if f in SupportedFormats || f in ObjectPrototypeMembers then f else InvalidFormat
    else InvalidFormat
  }

  /** A tile requested as `.constructor` is counted under
      `windshaft.tiles.constructor.*` by the code as written, a label outside
      the supported formats; the corrected label is `invalid`. */
  lemma FormatStatAsWrittenLeaksPrototype()
    ensures FormatStatAsWritten(Some("constructor")) == "constructor"
    ensures "constructor" !in SupportedFormats && "constructor" != InvalidFormat
    ensures FormatStat(Some("constructor")) == InvalidFormat
  {
    assert '.' !in "constructor";
  }

  /** The two agree on every format that is not an inherited property name. */
  lemma FormatStatAgreesOffPrototype(format: Option<string>)
    requires format.Some? ==> Text.ReplaceFirst(format.value, '.', '_') !in ObjectPrototypeMembers
    ensures FormatStatAsWritten(format) == FormatStat(format)
  {
  }

  /** The text of a failed request: `err.message` when it is truthy,
      `'' + err` otherwise. */
  lemma ErrorTextChoice(err: Thrown)
    ensures Truthy(MessageOf(err)) ==> ErrorText(err) == ToString(MessageOf(err))
    ensures !Truthy(MessageOf(err)) ==> ErrorText(err) == ThrownToString(err)
  {
  }

  /** The text of a tile error: the error text, with a Mapnik style error
      rewritten to name its layer. */
  function TileErrorText(err: Thrown): (r: string)
    ensures r == ErrorText(err) || (5 <= |r| < |ErrorText(err)| && r[..5] == "style")
  {
    StyleErrors.RewriteStyleError(ErrorText(err))
  }

  /** An `Error` whose message ends with a layer's style tag is reported as
      `style<N>: <problem>`; a message without a tag is reported as it is. */
  lemma TileErrorTextOfStyleError(name: string, problem: string, layer: string, status: Option<int>)
    requires StyleErrors.NoLineTerminator(problem, 0, |problem|)
    requires StyleErrors.AllDigits(layer, 0, |layer|) && |layer| >= 1
    ensures TileErrorText(Error(name, problem + StyleErrors.Marker + layer + "'", status)) ==
            "style" + layer + ": " + problem
  {
    StyleErrors.RewriteNamesTheLayer(problem, layer);
  }

  lemma TileErrorTextWithoutTag(err: Thrown)
    requires forall i, j, d :: !StyleErrors.RegexMatch(ErrorText(err), i, j, d)
    ensures TileErrorText(err) == ErrorText(err)
  {
    StyleErrors.RewriteFollowsPreferredMatch(ErrorText(err), StyleErrors.StyleMatch(0, 0, 0));
  }

  /** Counters after `name` is incremented once. */
  function Bump(counters: map<string, nat>, name: string): (r: map<string, nat>)
    ensures r.Keys == counters.Keys + {name}
    ensures Count(r, name) == Count(counters, name) + 1
    ensures forall other :: other != name ==> Count(r, other) == Count(counters, other)
  {
    counters[name := Count(counters, name) + 1]
  }

  /** The value of a counter, zero when it was never incremented. */
  function Count(counters: map<string, nat>, name: string): nat
  {
    if name in counters then counters[name] else 0
  }

  /** The two counters a finished tile request increments: the overall one
      and the one of its format label, both for its outcome. */
  function TileCounterNames(failed: bool, stat: string): (names: seq<string>)
    ensures |names| == 2 && names[0] != names[1]
  {
    if failed then ["windshaft.tiles.error", "windshaft.tiles." + stat + ".error"]
    else ["windshaft.tiles.success", "windshaft.tiles." + stat + ".success"]
  }

  /** The counters after a finished tile request. */
  function TileCounts(counters: map<string, nat>, failed: bool, format: Option<string>): (r: map<string, nat>)
    ensures forall name :: name in r <==> name in counters || name in TileCounterNames(failed, FormatStat(format))
  {
    var names := TileCounterNames(failed, FormatStat(format));
    Bump(Bump(counters, names[0]), names[1])
  }

  /** A finished tile request adds one to the overall counter of its outcome
      and one to the counter of its format label and outcome, and leaves
      every other counter as it was. */
  lemma {:induction false} TileCountsEffect(counters: map<string, nat>, failed: bool, format: Option<string>)
    ensures var names := TileCounterNames(failed, FormatStat(format));
      var after := TileCounts(counters, failed, format);
      Count(after, names[0]) == Count(counters, names[0]) + 1 &&
      Count(after, names[1]) == Count(counters, names[1]) + 1 &&
      forall other :: other !in names ==> Count(after, other) == Count(counters, other)
  {
    var names := TileCounterNames(failed, FormatStat(format));
    var once := Bump(counters, names[0]);
    assert Count(once, names[1]) == Count(counters, names[1]);
  }

  /** The process-wide statistics client: named counters incremented in place. */
  class StatsClient {
    var counters: map<string, nat>

    constructor ()
      ensures counters == map[]
    {
      counters := map[];
    }

    method Increment(name: string)
      modifies this
      ensures counters == Bump(old(counters), name)
    {
      counters := counters[name := Count(counters, name) + 1];
    }
  }

  /** `finalizeGetTileOrGrid`: the reply of a tile request and its counters.
      The label is worked out first; a failure is reported with its tile
      error text and the status `findStatusCode` gives it, a success sends
      the tile with its headers. */
  method FinalizeGetTileOrGrid(err: Option<TruthyThrown>, format: Option<string>, tile: JsValue, headers: JsValue,
                               findStatusCode: Thrown -> int, stats: StatsClient)
    returns (reply: Reply)
    modifies stats
    ensures err.Some? ==>
      reply == ErrorReply(ErrorsBody([Str(TileErrorText(err.value))]), findStatusCode(err.value), "TILE RENDER")
    ensures err.None? ==> reply == WithHeaders(tile, 200, headers)
    ensures stats.counters == TileCounts(old(stats.counters), err.Some?, format)
  {
    var formatStat := InvalidFormat;
    if format.Some? && format.value != "" {
      var normalised := Text.ReplaceFirst(format.value, '.', '_');
      if normalised in SupportedFormats {
        formatStat := normalised;
      }
    }
    assert formatStat == FormatStat(format);
    if err.Some? {
      var errMsg := ErrorText(err.value);
      var statusCode := findStatusCode(err.value);
      var matches := StyleErrors.MatchStyleError(errMsg);
      if matches.Some? {
        errMsg := StyleErrors.Rewritten(errMsg, matches.value);
      }
      reply := ErrorReply(ErrorsBody([Str(errMsg)]), statusCode, "TILE RENDER");
      stats.Increment("windshaft.tiles.error");
      stats.Increment("windshaft.tiles." + formatStat + ".error");
    } else {
      reply := WithHeaders(tile, 200, headers);
      stats.Increment("windshaft.tiles.success");
      stats.Increment("windshaft.tiles." + formatStat + ".success");
    }
  }

  /** `tileOrLayer`: a failure of `req2params` (`setup`) skips the backend and
      reaches the final step with no tile; otherwise the backend's outcome
      (tile and headers, or an error) does. */
  method TileOrLayer(setup: Option<TruthyThrown>, getTileOrGrid: () -> Result<(JsValue, JsValue), TruthyThrown>,
                     format: Option<string>, findStatusCode: Thrown -> int, stats: StatsClient)
    returns (reply: Reply)
    modifies stats
    ensures setup.Some? ==>
      reply == ErrorReply(ErrorsBody([Str(TileErrorText(setup.value))]), findStatusCode(setup.value), "TILE RENDER")
    ensures setup.None? && getTileOrGrid().Failure? ==>
      reply == ErrorReply(ErrorsBody([Str(TileErrorText(getTileOrGrid().error))]),
                          findStatusCode(getTileOrGrid().error), "TILE RENDER")
    ensures setup.None? && getTileOrGrid().Success? ==>
      reply == WithHeaders(getTileOrGrid().value.0, 200, getTileOrGrid().value.1)
    ensures stats.counters ==
      TileCounts(old(stats.counters), setup.Some? || getTileOrGrid().Failure?, format)
  {
    if setup.Some? {
      reply := FinalizeGetTileOrGrid(setup, format, Undefined, Undefined, findStatusCode, stats);
      return;
    }
    var fetched := getTileOrGrid();
    if fetched.Failure? {
      reply := FinalizeGetTileOrGrid(Some(fetched.error), format, Undefined, Undefined, findStatusCode, stats);
    } else {
      reply := FinalizeGetTileOrGrid(None, format, fetched.value.0, fetched.value.1, findStatusCode, stats);
    }
  }

  /** `layer`: the token `static` belongs to another route, so the request is
      passed on untouched; any other token is served as a tile. */
  method Layer(token: JsValue, setup: Option<TruthyThrown>, getTileOrGrid: () -> Result<(JsValue, JsValue), TruthyThrown>,
               format: Option<string>, findStatusCode: Thrown -> int, stats: StatsClient)
    returns (reply: Reply)
    modifies stats
    ensures token == Str("static") ==> reply == PassedOn && stats.counters == old(stats.counters)
    ensures token != Str("static") ==>
      reply != PassedOn &&
      stats.counters == TileCounts(old(stats.counters), setup.Some? || getTileOrGrid().Failure?, format)
    ensures token != Str("static") && setup.Some? ==>
      reply == ErrorReply(ErrorsBody([Str(TileErrorText(setup.value))]), findStatusCode(setup.value), "TILE RENDER")
    ensures token != Str("static") && setup.None? && getTileOrGrid().Failure? ==>
      reply == ErrorReply(ErrorsBody([Str(TileErrorText(getTileOrGrid().error))]),
                          findStatusCode(getTileOrGrid().error), "TILE RENDER")
    ensures token != Str("static") && setup.None? && getTileOrGrid().Success? ==>
      reply == WithHeaders(getTileOrGrid().value.0, 200, getTileOrGrid().value.1)
  {
    if token == Str("static") {
      return PassedOn;
    }
    reply := TileOrLayer(setup, getTileOrGrid, format, findStatusCode, stats);
  }

  const ConfigMissingMessage: string := "layergroup GET needs a \"config\" parameter"
  const NotJsonMessage: string := "layergroup POST data must be of type application/json"

  /** `createGet`'s preparation: a falsy `config` parameter is refused, any
      other is parsed as JSON. */
  function PrepareGetConfig(config: JsValue, parse: string -> Result<JsValue, TruthyThrown>): (r: Result<JsValue, TruthyThrown>)
    ensures !Truthy(config) ==> r == Failure(NewError(ConfigMissingMessage, None))
    ensures Truthy(config) ==> r == parse(ToString(config))
  {
    if !Truthy(config) then Failure(NewError(ConfigMissingMessage, None))
    else parse(ToString(config))
  }

  /** `createPost`'s preparation: the body is taken only when a
      `content-type` header is present and its media type, the part before
      the first `;`, is exactly `application/json`. */
  function PreparePostConfig(headers: map<string, string>, body: JsValue): (r: Result<JsValue, TruthyThrown>)
    ensures r.Success? <==>
      "content-type" in headers && Text.BeforeFirst(headers["content-type"], ';') == "application/json"
    ensures r.Success? ==> r.value == body
    ensures r.Failure? ==> r.error == NewError(NotJsonMessage, None)
  {
    if "content-type" !in headers || headers["content-type"] == ""
       || Text.BeforeFirst(headers["content-type"], ';') != "application/json"
    then Failure(NewError(NotJsonMessage, None))
    else Success(body)
  }

  /** Parameters after the media type do not matter. */
  lemma {:induction false} MediaTypeParametersIgnored(parameters: string, body: JsValue)
    ensures PreparePostConfig(map["content-type" := "application/json;" + parameters], body) == Success(body)
  {
    var contentType := "application/json;" + parameters;
    assert contentType[16] == ';';
    assert contentType[..16] == "application/json";
    var mediaType := Text.BeforeFirst(contentType, ';');
    assert |mediaType| == 16;
    assert mediaType == contentType[..16];
  }

  /** Any other media type, or none, is refused; the comparison is exact. */
  lemma PostContentTypesRefused(body: JsValue)
    ensures PreparePostConfig(map[], body).Failure?
    ensures PreparePostConfig(map["content-type" := ""], body).Failure?
    ensures PreparePostConfig(map["content-type" := "text/plain"], body).Failure?
    ensures PreparePostConfig(map["content-type" := "Application/JSON"], body).Failure?
  {
  }

  /** The reply `create` sends for a failure: `{ errors: [err.message] }`. */
  function LayergroupError(err: Thrown, findStatusCode: Thrown -> int): (reply: Reply)
    ensures reply.ErrorReply? && reply.status == findStatusCode(err) && reply.operation == "GET LAYERGROUP"
    ensures err.Error? ==> reply.body == ErrorsBody([Str(err.message)])
    ensures err.Value? && !err.value.Obj? ==> reply.body == ErrorsBody([Undefined])
  {
    ErrorReply(ErrorsBody([MessageOf(err)]), findStatusCode(err), "GET LAYERGROUP")
  }

  /** `create`: the first failure among `req2params` (`setup`), the
      preparation and the backend's layergroup creation is reported;
      without one the created layergroup is sent with status 200. */
  function Create(setup: Option<TruthyThrown>, prepared: Result<JsValue, TruthyThrown>,
                  createLayergroup: JsValue -> Result<JsValue, TruthyThrown>,
                  findStatusCode: Thrown -> int): (reply: Reply)
    ensures reply.Response? <==> setup.None? && prepared.Success? && createLayergroup(prepared.value).Success?
    ensures reply.Response? ==> reply == Response(createLayergroup(prepared.value).value, 200)
    ensures setup.Some? ==> reply == LayergroupError(setup.value, findStatusCode)
    ensures setup.None? && prepared.Failure? ==> reply == LayergroupError(prepared.error, findStatusCode)
    ensures setup.None? && prepared.Success? && createLayergroup(prepared.value).Failure? ==>
      reply == LayergroupError(createLayergroup(prepared.value).error, findStatusCode)
  {
    var outcome :=
      if setup.Some? then Failure(setup.value)
      else if prepared.Failure? then prepared
      else createLayergroup(prepared.value);
    match outcome
    case Failure(err) => LayergroupError(err, findStatusCode)
    case Success(response) => Response(response, 200)
  }

  /** A layergroup GET without `config` is refused before the backend is
      asked: the reply is the same whatever the backend would do. */
  lemma {:induction false} CreateGetNeedsConfig(config: JsValue, parse: string -> Result<JsValue, TruthyThrown>,
                                                createLayergroup: JsValue -> Result<JsValue, TruthyThrown>,
                                                findStatusCode: Thrown -> int)
    requires !Truthy(config)
    ensures Create(None, PrepareGetConfig(config, parse), createLayergroup, findStatusCode) ==
      ErrorReply(ErrorsBody([Str(ConfigMissingMessage)]), findStatusCode(NewError(ConfigMissingMessage, None)),
                 "GET LAYERGROUP")
  {
    assert PrepareGetConfig(config, parse) == Failure(NewError(ConfigMissingMessage, None));
  }

  /** A layergroup POST whose body is not declared as JSON is refused before
      the backend is asked. */
  lemma {:induction false} CreatePostNeedsJson(headers: map<string, string>, body: JsValue,
                                               createLayergroup: JsValue -> Result<JsValue, TruthyThrown>,
                                               findStatusCode: Thrown -> int)
    requires "content-type" !in headers || Text.BeforeFirst(headers["content-type"], ';') != "application/json"
    ensures Create(None, PreparePostConfig(headers, body), createLayergroup, findStatusCode) ==
      ErrorReply(ErrorsBody([Str(NotJsonMessage)]), findStatusCode(NewError(NotJsonMessage, None)),
                 "GET LAYERGROUP")
  {
    assert PreparePostConfig(headers, body) == Failure(NewError(NotJsonMessage, None));
  }

  /** The reply `attributes` sends for a failure: the error text, as for tiles
      but without the style rewrite. */
  function AttributesError(err: Thrown, findStatusCode: Thrown -> int): (reply: Reply)
    ensures reply.ErrorReply? && reply.status == findStatusCode(err) && reply.operation == "GET ATTRIBUTES"
    ensures err.Error? && err.message != "" ==> reply.body == ErrorsBody([Str(err.message)])
    ensures err.Error? && err.message == "" ==> reply.body == ErrorsBody([Str(err.name)])
    ensures err.Value? && !err.value.Obj? ==> reply.body == ErrorsBody([Str(ToString(err.value))])
  {
    ErrorReply(ErrorsBody([Str(ErrorText(err))]), findStatusCode(err), "GET ATTRIBUTES")
  }

  /** `attributes`: a failure of `req2params` or of the feature lookup is
      reported; otherwise the attributes are sent with status 200. */
  function Attributes(setup: Option<TruthyThrown>, getFeatureAttributes: () -> Result<JsValue, TruthyThrown>,
                      findStatusCode: Thrown -> int): (reply: Reply)
    ensures reply.Response? <==> setup.None? && getFeatureAttributes().Success?
    ensures reply.Response? ==> reply == Response(getFeatureAttributes().value, 200)
    ensures setup.Some? ==> reply == AttributesError(setup.value, findStatusCode)
    ensures setup.None? && getFeatureAttributes().Failure? ==>
      reply == AttributesError(getFeatureAttributes().error, findStatusCode)
  {
    if setup.Some? then AttributesError(setup.value, findStatusCode)
    else match getFeatureAttributes()
      case Failure(err) => AttributesError(err, findStatusCode)
      case Success(tile) => Response(tile, 200)
  }
}

=== FILE: named_map_provider.dfy ===
/** The named-map configuration provider (named-map-provider.js): a
    single-shot session that fetches and authorises a stored template,
    resolves the owner's database parameters, instances the template with the
    caller's config, runs the configuration adapter, attaches render limits,
    memoises the outcome, derives cache keys and looks up the tables the
    resulting map configuration reads.

    Every collaborator is a total function over values (an oracle). What the
    session asks its collaborators is recorded in the ghost trace `calls`, so
    "the memoised path asks nobody" is a statement about that trace. */
module NamedMapProvider {
  import opened Wrappers
  import opened Js
  import CacheKeys

  // ---------------------------------------------------------------------
  // Values exchanged with the collaborators

  datatype Template = Template(name: string, document: JsValue)

  /** What `pgConnection.getDatabaseParams(user)` reports. */
  datatype DatabaseParams = DatabaseParams(dbuser: JsValue, dbpass: JsValue, dbhost: JsValue, dbport: JsValue, dbname: JsValue)

  datatype Connection = Connection(handle: nat)

  /** One layer of a map configuration, as far as table tracking reads it:
      `options.sql` and `options.affected_tables` (absent = no entries). */
  datatype Layer = Layer(sql: JsValue, affectedTables: seq<string>)

  /** The document the configuration adapter produces. */
  datatype MapConfigDocument = MapConfigDocument(layers: seq<Layer>, rest: JsValue)

  /** `new MapConfig(document, context.datasource)`. */
  datatype MapConfig = MapConfig(document: MapConfigDocument, datasource: JsValue)

  /** What the table-introspection library reports for a query. */
  datatype AffectedTables = AffectedTables(tables: set<string>)

  datatype AnalysisDb = AnalysisDb(host: JsValue, port: JsValue, dbname: JsValue, user: JsValue, pass: JsValue)

  /** `context.analysisConfiguration`. */
  datatype AnalysisConfiguration = AnalysisConfiguration(user: string, db: AnalysisDb, batchUsername: string, batchApiKey: JsValue)

  /** The `context` object the pipeline builds; `None`/undefined for a
      property that was never written. */
  datatype Context = Context(
    templateParams: Option<JsValue>,
    analysisConfiguration: Option<AnalysisConfiguration>,
    datasource: JsValue,
    analysesResults: JsValue,
    limits: Option<JsValue>)

  const EmptyContext := Context(None, None, Undefined, Undefined, None)

  // ---------------------------------------------------------------------
  // Collaborators

  datatype TemplateMaps = TemplateMaps(
    getTemplate: (string, string) -> Result<Option<Template>, ErrorObject>,
    /** `isAuthorized(template, token)`; `Failure` when it throws. */
    isAuthorized: (Template, JsValue) -> Result<bool, ErrorObject>,
    instance: (Template, JsValue) -> Result<JsValue, ErrorObject>)

  datatype PgConnection = PgConnection(
    getDatabaseParams: string -> Result<DatabaseParams, ErrorObject>,
    getConnection: string -> Result<Connection, ErrorObject>)

  datatype MetadataBackend = MetadataBackend(getUserMapKey: string -> Result<JsValue, ErrorObject>)

  datatype UserLimitsApi = UserLimitsApi(getRenderLimits: (string, JsValue) -> Result<JsValue, ErrorObject>)

  /** The adapter's answer plus what it writes into `context`
      (`datasource`, `analysesResults`; undefined when it writes nothing). */
  datatype AdapterOutcome = AdapterOutcome(result: Result<MapConfigDocument, ErrorObject>, datasource: JsValue, analysesResults: JsValue)

  datatype MapConfigAdapter = MapConfigAdapter(getMapConfig: (string, JsValue, Params, Context) -> AdapterOutcome)

  /** The five collaborators handed to the constructor. */
  datatype Services = Services(
    templateMaps: TemplateMaps,
    pgConnection: PgConnection,
    metadataBackend: MetadataBackend,
    userLimitsApi: UserLimitsApi,
    mapConfigAdapter: MapConfigAdapter)

  /** Module-level libraries: `JSON.parse`, `JSON.stringify`, MD5 as hex,
      `MapConfig.prototype.id` and `QueryTables.getAffectedTablesFromQuery`. */
  datatype Libraries = Libraries(
    parse: string -> Result<JsValue, ErrorObject>,
    stringify: JsValue -> string,
    md5Hex: string -> CacheKeys.HexDigest,
    mapConfigId: MapConfig -> string,
    getAffectedTablesFromQuery: (Connection, string) -> Result<AffectedTables, ErrorObject>)

  /** One request made to a collaborator, with the arguments that matter. */
  datatype Call =
    | GetTemplateCall(owner: string, name: string)
    | IsAuthorizedCall(template: Template, token: JsValue)
    | GetDatabaseParamsCall(user: string)
    | GetUserMapKeyCall(user: string)
    | InstanceCall(template: Template, templateParams: JsValue)
    | AdapterCall(user: string, requestMapConfig: JsValue, rendererParams: Params)
    | GetRenderLimitsCall(user: string, apiKey: JsValue)
    | GetConnectionCall(user: string)
    | AffectedTablesQueryCall(sql: string)

  // ---------------------------------------------------------------------
  // The session's inputs and memoised state, as values

  datatype Inputs = Inputs(owner: string, templateName: string, config: JsValue, authToken: JsValue, params: Params)

  /** The fields a session memoises (`rendererParams` as the contents of its
      object), plus the trace of collaborator requests. */
  datatype Memo = Memo(
    err: Option<ErrorObject>,
    template: Option<Template>,
    mapConfig: Option<MapConfig>,
    rendererParams: Option<Params>,
    context: Context,
    analysesResults: JsValue,
    calls: seq<Call>)

  /** The entry test of `getMapConfig`: `!!this.err || this.mapConfig !== null`. */
  predicate Resolved(m: Memo)
  {
    m.err.Some? || m.mapConfig.Some?
  }

  predicate WellFormed(m: Memo)
  {
    m.mapConfig.Some? ==> m.rendererParams.Some?
  }

  // ---------------------------------------------------------------------
  // Errors raised by the provider itself

  function TemplateNotFound(templateName: string, owner: string): ErrorObject
  {
    NewError("Template '" + templateName + "' of user '" + owner + "' not found", Some(404))
  }

  const FailedToAuthorize: ErrorObject := NewError("Failed to authorize template", Some(403))

  const UnauthorizedInstantiation: ErrorObject := NewError("Unauthorized template instantiation", Some(403))

  const MalformedConfig: ErrorObject := NewError("malformed config parameter, should be a valid JSON", None)

  // ---------------------------------------------------------------------
  // getTemplate

  datatype TemplateOutcome = TemplateOutcome(result: Result<Template, ErrorObject>, calls: seq<Call>)

  /** The three steps of `getTemplate` after its entry test: fetch, check
      existence, check authorisation. */
  function FetchTemplate(tm: TemplateMaps, owner: string, templateName: string, authToken: JsValue): (o: TemplateOutcome)
    ensures |o.calls| >= 1 && o.calls[0] == GetTemplateCall(owner, templateName)
    ensures !o.calls[|o.calls| - 1].GetRenderLimitsCall?
    ensures o.result.Success? ==>
      && tm.getTemplate(owner, templateName) == Success(Some(o.result.value))
      && tm.isAuthorized(o.result.value, authToken) == Success(true)
  {
    var first := [GetTemplateCall(owner, templateName)];
    match tm.getTemplate(owner, templateName)
    case Failure(e) => TemplateOutcome(Failure(e), first)
    case Success(None) => TemplateOutcome(Failure(TemplateNotFound(templateName, owner)), first)
    case Success(Some(tpl)) =>
      var calls := first + [IsAuthorizedCall(tpl, authToken)];
      match tm.isAuthorized(tpl, authToken)
      case Failure(_) => TemplateOutcome(Failure(FailedToAuthorize), calls)
      case Success(false) => TemplateOutcome(Failure(UnauthorizedInstantiation), calls)
      case Success(true) => TemplateOutcome(Success(tpl), calls)
  }

  /** The outcomes of `getTemplate`'s checks: a missing template is a 404
      after one request; a found template is authorised with the request's
      token, and a throwing check or a refusal are 403 errors. */
  lemma TemplateChecks(tm: TemplateMaps, owner: string, templateName: string, authToken: JsValue)
    ensures var o := FetchTemplate(tm, owner, templateName, authToken);
      && (tm.getTemplate(owner, templateName) == Success(None) ==>
            o.result == Failure(TemplateNotFound(templateName, owner)) && o.calls == [GetTemplateCall(owner, templateName)])
      && (tm.getTemplate(owner, templateName).Failure? ==>
            o.result == Failure(tm.getTemplate(owner, templateName).error) && o.calls == [GetTemplateCall(owner, templateName)])
      && (forall tpl :: tm.getTemplate(owner, templateName) == Success(Some(tpl)) ==>
            && o.calls == [GetTemplateCall(owner, templateName), IsAuthorizedCall(tpl, authToken)]
            && (tm.isAuthorized(tpl, authToken).Failure? ==> o.result == Failure(FailedToAuthorize))
            && (tm.isAuthorized(tpl, authToken) == Success(false) ==> o.result == Failure(UnauthorizedInstantiation))
            && (tm.isAuthorized(tpl, authToken) == Success(true) ==> o.result == Success(tpl)))
  {
  }

  /** The session state after `getTemplate`. */
  function GetTemplateSpec(m: Memo, inputs: Inputs, tm: TemplateMaps): (r: Memo)
    ensures m.err.Some? || m.template.Some? ==> r == m
    ensures r.err.Some? || r.template.Some?
    ensures r.mapConfig == m.mapConfig && r.rendererParams == m.rendererParams && r.context == m.context
    ensures r.analysesResults == m.analysesResults
    ensures m.err.None? && m.template.None? ==>
      var o := FetchTemplate(tm, inputs.owner, inputs.templateName, inputs.authToken);
      && r.calls == m.calls + o.calls
      && (o.result.Failure? ==> r.err == Some(o.result.error) && r.template.None?)
      && (o.result.Success? ==> r.err.None? && r.template == Some(o.result.value))
  {
    if m.err.Some? || m.template.Some? then m
    else
      var o := FetchTemplate(tm, inputs.owner, inputs.templateName, inputs.authToken);
      match o.result
      case Failure(e) => m.(err := Some(e), template := None, calls := m.calls + o.calls)
      case Success(tpl) => m.(err := None, template := Some(tpl), calls := m.calls + o.calls)
  }

  // ---------------------------------------------------------------------
  // getMapConfig

  /** `_.extend({}, params, {user: owner})`. */
  function WithUser(params: Params, owner: string): Params
  {
    params["user" := Str(owner)]
  }

  /** `user` is added and every other parameter is kept. */
  lemma WithUserFields(params: Params, owner: string)
    ensures WithUser(params, owner).Keys == params.Keys + {"user"}
    ensures WithUser(params, owner)["user"] == Str(owner)
    ensures WithUser(params, owner) - {"user"} == params - {"user"}
  {
  }

  /** The renderer parameters `setDBParams` writes. */
  const DatabaseFields: set<string> := {"dbuser", "dbpass", "dbhost", "dbport", "dbname"}

  /** `setDBParams` on success: the five database fields are written and
      every other parameter is kept. */
  function WithDatabaseParams(rp: Params, db: DatabaseParams): Params
  {
    rp["dbuser" := db.dbuser]["dbpass" := db.dbpass]["dbhost" := db.dbhost]["dbport" := db.dbport]["dbname" := db.dbname]
  }

  /** The five fields hold the owner's database parameters; every other
      parameter is kept and none is added. */
  lemma WithDatabaseParamsFields(rp: Params, db: DatabaseParams)
    ensures WithDatabaseParams(rp, db).Keys == rp.Keys + DatabaseFields
    ensures var r := WithDatabaseParams(rp, db);
      && r["dbuser"] == db.dbuser && r["dbpass"] == db.dbpass && r["dbhost"] == db.dbhost
      && r["dbport"] == db.dbport && r["dbname"] == db.dbname
    ensures WithDatabaseParams(rp, db) - DatabaseFields == rp - DatabaseFields
  {
  }

  /** The template parameters: `{}` for a falsy config, `JSON.parse` of a
      string (a parse failure becomes the fixed "malformed config" error),
      and any other value as it is. */
  function TemplateParams(config: JsValue, parse: string -> Result<JsValue, ErrorObject>): (r: Result<JsValue, ErrorObject>)
    ensures !Truthy(config) ==> r == Success(EmptyObject)
    ensures Truthy(config) && !config.Str? ==> r == Success(config)
    ensures Truthy(config) && config.Str? ==>
      (r.Failure? <==> parse(config.s).Failure?) &&
      (r.Failure? ==> r.error == MalformedConfig) &&
      (r.Success? ==> r == parse(config.s))
  {
    if !Truthy(config) then Success(EmptyObject)
    else if config.Str? then
      match parse(config.s)
      case Failure(_) => Failure(MalformedConfig)
      case Success(v) => Success(v)
    else Success(config)
  }

  /** `context.analysisConfiguration`; the password is read from
      `rendererParams.dbpassword`, a property `setDBParams` never writes. */
  function AnalysisConfigurationOf(owner: string, rp: Params, apiKey: JsValue): (r: AnalysisConfiguration)
    ensures r.user == owner && r.batchUsername == owner && r.batchApiKey == apiKey
    ensures r.db.host == Get(rp, "dbhost") && r.db.port == Get(rp, "dbport")
    ensures r.db.dbname == Get(rp, "dbname") && r.db.user == Get(rp, "dbuser")
    ensures r.db.pass == Get(rp, "dbpassword")
  {
    AnalysisConfiguration(
      owner,
      AnalysisDb(Get(rp, "dbhost"), Get(rp, "dbport"), Get(rp, "dbname"), Get(rp, "dbuser"), Get(rp, "dbpassword")),
      owner,
      apiKey)
  }

  /** The last step of `getMapConfig` (`cacheAndReturnMapConfig`): store the
      error, the map configuration (if the adapter produced one), the
      renderer parameters, the context with `limits = renderLimits || {}`,
      and `analysesResults || []`. The template is left as it is. */
  function Finish(m: Memo, err: Option<ErrorObject>, doc: Option<MapConfigDocument>, rp: Option<Params>,
                  ctx: Context, renderLimits: JsValue, calls: seq<Call>): (r: Memo)
    ensures r.err == err && r.template == m.template && r.rendererParams == rp && r.calls == calls
    ensures r.mapConfig.Some? <==> doc.Some?
    ensures doc.Some? ==> r.mapConfig == Some(MapConfig(doc.value, ctx.datasource))
    ensures r.context.limits.Some? && Truthy(r.context.limits.value)
    ensures r.context.limits.value == renderLimits || (!Truthy(renderLimits) && r.context.limits.value == EmptyObject)
    ensures r.context.(limits := ctx.limits) == ctx
    ensures r.analysesResults == ctx.analysesResults || (!Truthy(ctx.analysesResults) && r.analysesResults == Arr([]))
  {
    Memo(
      err,
      m.template,
      if doc.Some? then Some(MapConfig(doc.value, ctx.datasource)) else None,
      rp,
      ctx.(limits := Some(Or(renderLimits, EmptyObject))),
      Or(ctx.analysesResults, Arr([])),
      calls)
  }

  /** What the stages after `getTemplate` produce: the error (if any), the
      adapter's document (if it got that far), the renderer parameters, the
      context, the render limits, and the requests made, in order. */
  datatype Outcome = Outcome(
    err: Option<ErrorObject>,
    doc: Option<MapConfigDocument>,
    rendererParams: Params,
    context: Context,
    renderLimits: JsValue,
    calls: seq<Call>)

  /** `cacheAndReturnMapConfig` applied to an outcome. */
  function Settle(t: Memo, o: Outcome): (r: Memo)
    requires o.err.None? ==> o.doc.Some?
    ensures Resolved(r) && WellFormed(r) && r.calls == t.calls + o.calls
  {
    Finish(t, o.err, o.doc, Some(o.rendererParams), o.context, o.renderLimits, t.calls + o.calls)
  }

  /** `getMapConfig`: the memoised state when resolved, otherwise the whole
      pipeline, which always ends resolved. */
  function Resolve(m: Memo, inputs: Inputs, services: Services, parse: string -> Result<JsValue, ErrorObject>): (r: Memo)
    ensures Resolved(m) ==> r == m
    ensures Resolved(r)
    ensures WellFormed(m) ==> WellFormed(r)
    ensures m.calls <= r.calls
  {
    if Resolved(m) then m
    else
      var t := GetTemplateSpec(m, inputs, services.templateMaps);
      if t.err.Some? then Finish(t, t.err, None, None, EmptyContext, Undefined, t.calls)
      else Settle(t, FromTemplate(t.template.value, inputs, services, parse))
  }

  /** `prepareDbParams` and `getUserApiKey`, then the remaining stages. */
  function FromTemplate(tpl: Template, inputs: Inputs, services: Services,
                        parse: string -> Result<JsValue, ErrorObject>): (o: Outcome)
    ensures o.err.None? ==> o.doc.Some?
  {
    var owner := inputs.owner;
    var rp0 := WithUser(inputs.params, owner);
    match services.pgConnection.getDatabaseParams(owner)
    case Failure(e) => Outcome(Some(e), None, rp0, EmptyContext, Undefined, [GetDatabaseParamsCall(owner)])
    case Success(db) =>
      var rp := WithDatabaseParams(rp0, db);
      var asked := [GetDatabaseParamsCall(owner), GetUserMapKeyCall(owner)];
      match services.metadataBackend.getUserMapKey(owner)
      case Failure(e) => Outcome(Some(e), None, rp, EmptyContext, Undefined, asked)
      case Success(apiKey) =>
        var o := FromApiKey(tpl, rp, apiKey, inputs, services, parse);
        o.(calls := asked + o.calls)
  }

  /** `prepareParams`, `instantiateTemplate`, `prepareAdapterMapConfig`,
      `prepareContextLimits`; render limits are asked for with the request's
      `api_key` parameter, not with the key fetched before. */
  function FromApiKey(tpl: Template, rp: Params, apiKey: JsValue, inputs: Inputs, services: Services,
                      parse: string -> Result<JsValue, ErrorObject>): (o: Outcome)
    ensures o.err.None? ==> o.doc.Some?
    ensures o.rendererParams == rp
  {
    var owner := inputs.owner;
    match TemplateParams(inputs.config, parse)
    case Failure(e) => Outcome(Some(e), None, rp, EmptyContext, Undefined, [])
    case Success(templateParams) =>
      var ctx1 := EmptyContext.(templateParams := Some(templateParams));
      var instanceCall := InstanceCall(tpl, templateParams);
      match services.templateMaps.instance(tpl, templateParams)
      case Failure(e) => Outcome(Some(e), None, rp, ctx1, Undefined, [instanceCall])
      case Success(requestMapConfig) =>
        var ctx2 := ctx1.(analysisConfiguration := Some(AnalysisConfigurationOf(owner, rp, apiKey)));
        var adapterCall := AdapterCall(owner, requestMapConfig, rp);
        var adapted := services.mapConfigAdapter.getMapConfig(owner, requestMapConfig, rp, ctx2);
        var ctx3 := ctx2.(datasource := adapted.datasource, analysesResults := adapted.analysesResults);
        match adapted.result
        case Failure(e) => Outcome(Some(e), None, rp, ctx3, Undefined, [instanceCall, adapterCall])
        case Success(doc) =>
          var limitsCall := GetRenderLimitsCall(owner, Get(inputs.params, "api_key"));
          match services.userLimitsApi.getRenderLimits(owner, Get(inputs.params, "api_key"))
          case Failure(e) => Outcome(Some(e), Some(doc), rp, ctx3, Undefined, [instanceCall, adapterCall, limitsCall])
          case Success(limits) => Outcome(None, Some(doc), rp, ctx3, limits, [instanceCall, adapterCall, limitsCall])
  }

  // ---------------------------------------------------------------------
  // getAffectedTables

  /** The probe query for one `affected_tables` entry. */
  function TableProbe(table: string): string
  {
    "SELECT * FROM " + table + " LIMIT 0"
  }

  function TableProbes(tables: seq<string>): (r: seq<JsValue>)
    ensures |r| == |tables|
    ensures forall i :: 0 <= i < |tables| ==> r[i] == Str(TableProbe(tables[i]))
  {
    seq(|tables|, i requires 0 <= i < |tables| => Str(TableProbe(tables[i])))
  }

  /** The queries one layer contributes: its `sql`, then one probe per entry
      of `affected_tables`. */
  function QueriesOf(layer: Layer): (r: seq<JsValue>)
    ensures |r| == 1 + |layer.affectedTables| && r[0] == layer.sql
  {
    [layer.sql] + TableProbes(layer.affectedTables)
  }

  /** The query list built layer by layer, in order. */
  function LayerQueries(layers: seq<Layer>): (r: seq<JsValue>)
    ensures |r| >= |layers|
  {
    if |layers| == 0 then [] else LayerQueries(layers[..|layers| - 1]) + QueriesOf(layers[|layers| - 1])
  }

  /** The number of probes all layers declare. */
  function ProbeCount(layers: seq<Layer>): nat
  {
    if |layers| == 0 then 0 else ProbeCount(layers[..|layers| - 1]) + |layers[|layers| - 1].affectedTables|
  }

  /** The query list of a concatenation of layers is the concatenation of
      their query lists: the queries keep the layers' order. */
  lemma {:induction false} LayerQueriesAppend(a: seq<Layer>, b: seq<Layer>)
    ensures LayerQueries(a + b) == LayerQueries(a) + LayerQueries(b)
    decreases |b|
  {
    if |b| == 0 {
      assert a + b == a;
    } else {
      var b' := b[..|b| - 1];
      var last := QueriesOf(b[|b| - 1]);
      assert (a + b)[..|a + b| - 1] == a + b';
      assert (a + b)[|a + b| - 1] == b[|b| - 1];
      assert LayerQueries(a + b) == LayerQueries(a + b') + last;
      assert LayerQueries(b) == LayerQueries(b') + last;
      LayerQueriesAppend(a, b');
      assert LayerQueries(a + b) == LayerQueries(a) + (LayerQueries(b') + last);
    }
  }

  /** One query per layer plus one per declared affected table. */
  lemma {:induction false} LayerQueriesCount(layers: seq<Layer>)
    ensures |LayerQueries(layers)| == |layers| + ProbeCount(layers)
  {
    if |layers| > 0 {
      LayerQueriesCount(layers[..|layers| - 1]);
    }
  }

  /** `mapConfig.getLayers().forEach(...)` pushing onto `queries`. */
  method CollectQueries(layers: seq<Layer>) returns (queries: seq<JsValue>)
    ensures queries == LayerQueries(layers)
  {
    queries := [];
    var i := 0;
    while i < |layers|
      invariant 0 <= i <= |layers|
      invariant queries == LayerQueries(layers[..i])
    {
      var layer := layers[i];
      queries := queries + [layer.sql];
      var j := 0;
      while j < |layer.affectedTables|
        invariant 0 <= j <= |layer.affectedTables|
        invariant queries == LayerQueries(layers[..i]) + [layer.sql] + TableProbes(layer.affectedTables[..j])
      {
        queries := queries + [Str(TableProbe(layer.affectedTables[j]))];
        j := j + 1;
      }
      assert layer.affectedTables[..j] == layer.affectedTables;
      assert layers[..i + 1][..i] == layers[..i];
      i := i + 1;
    }
    assert layers[..i] == layers;
  }

  /** The affected-tables query is empty (and nothing is looked up or cached)
      exactly when there are no layers, or a single layer with no
      `affected_tables` whose `sql` renders as ''. */
  lemma {:induction false} NoQueryWhen(layers: seq<Layer>)
    ensures ArrayJoin(LayerQueries(layers), ";") == "" <==>
      |layers| == 0 || (|layers| == 1 && layers[0].affectedTables == [] && JoinElement(layers[0].sql) == "")
  {
    var qs := LayerQueries(layers);
    ArrayJoinEmpty(qs, ";");
    LayerQueriesCount(layers);
    if |layers| == 1 {
      assert layers[..0] == [];
      assert qs == QueriesOf(layers[0]);
    }
  }

  /** The key of the shared affected-tables cache: the renderer parameters
      and the map configuration's id. */
  function CacheKeyOf(s: Memo, lib: Libraries): (Params, string)
    requires s.mapConfig.Some? && s.rendererParams.Some?
  {
    (s.rendererParams.value, lib.mapConfigId(s.mapConfig.value))
  }

  datatype LookupOutcome = LookupOutcome(
    result: Result<Option<AffectedTables>, ErrorObject>,
    entries: map<(Params, string), AffectedTables>,
    calls: seq<Call>)

  /** `getAffectedTables` after `getMapConfig` has settled the session into
      `s`: a failed session fails; a cache hit answers without the database;
      an empty query answers nothing; otherwise the query's tables are
      fetched and, only on success, stored. */
  function AffectedTablesLookup(s: Memo, entries: map<(Params, string), AffectedTables>, owner: string,
                                pg: PgConnection, lib: Libraries): (o: LookupOutcome)
    requires Resolved(s) && WellFormed(s)
    ensures s.err.Some? ==> o == LookupOutcome(Failure(s.err.value), entries, [])
    ensures s.err.None? && CacheKeyOf(s, lib) in entries ==>
      o == LookupOutcome(Success(Some(entries[CacheKeyOf(s, lib)])), entries, [])
    ensures o.result.Failure? ==> o.entries == entries
    ensures o.entries == entries ||
      (s.err.None? && CacheKeyOf(s, lib) !in entries && o.result.Success? && o.result.value.Some?
       && o.entries == entries[CacheKeyOf(s, lib) := o.result.value.value])
    ensures o.calls == [] || o.calls[0] == GetConnectionCall(owner)
    ensures s.err.None? && CacheKeyOf(s, lib) !in entries ==>
      var sql := ArrayJoin(LayerQueries(s.mapConfig.value.document.layers), ";");
      && (sql == "" ==> o == LookupOutcome(Success(None), entries, []))
      && (sql != "" && pg.getConnection(owner).Failure? ==>
            o == LookupOutcome(Failure(pg.getConnection(owner).error), entries, [GetConnectionCall(owner)]))
      && (sql != "" && pg.getConnection(owner).Success? ==>
            var answer := lib.getAffectedTablesFromQuery(pg.getConnection(owner).value, sql);
            && o.calls == [GetConnectionCall(owner), AffectedTablesQueryCall(sql)]
            && (answer.Failure? ==> o.result == Failure(answer.error) && o.entries == entries)
            && (answer.Success? ==>
                  o.result == Success(Some(answer.value)) && o.entries == entries[CacheKeyOf(s, lib) := answer.value]))
  {
    if s.err.Some? then LookupOutcome(Failure(s.err.value), entries, [])
    else
      var key := CacheKeyOf(s, lib);
      if key in entries then LookupOutcome(Success(Some(entries[key])), entries, [])
      else
        var sql := ArrayJoin(LayerQueries(s.mapConfig.value.document.layers), ";");
        if sql == "" then LookupOutcome(Success(None), entries, [])
        else
          match pg.getConnection(owner)
          case Failure(e) => LookupOutcome(Failure(e), entries, [GetConnectionCall(owner)])
          case Success(connection) =>
            var calls := [GetConnectionCall(owner), AffectedTablesQueryCall(sql)];
            match lib.getAffectedTablesFromQuery(connection, sql)
            case Failure(e) => LookupOutcome(Failure(e), entries, calls)
            case Success(tables) => LookupOutcome(Success(Some(tables)), entries[key := tables], calls)
  }

  /** A map configuration with no layers, or with a single layer that has no
      `affected_tables` and whose `sql` renders as '', is answered with
      nothing: no connection, no query, no cache entry. */
  lemma {:induction false} EmptyQueryCachesNothing(s: Memo, entries: map<(Params, string), AffectedTables>, owner: string,
                                                    pg: PgConnection, lib: Libraries)
    requires Resolved(s) && WellFormed(s) && s.err.None? && CacheKeyOf(s, lib) !in entries
    requires var layers := s.mapConfig.value.document.layers;
      |layers| == 0 || (|layers| == 1 && layers[0].affectedTables == [] && JoinElement(layers[0].sql) == "")
    ensures AffectedTablesLookup(s, entries, owner, pg, lib) == LookupOutcome(Success(None), entries, [])
  {
    NoQueryWhen(s.mapConfig.value.document.layers);
  }

  // ---------------------------------------------------------------------
  // Properties of the resolution pipeline

  /** The stages from the template parameters on: the adapter's document is
      kept exactly when the run got as far as the render-limits request, the
      last one, which carries the request's `api_key`. */
  lemma ApiKeyStageFacts(tpl: Template, rp: Params, apiKey: JsValue, inputs: Inputs,
                         services: Services, parse: string -> Result<JsValue, ErrorObject>)
    ensures var o := FromApiKey(tpl, rp, apiKey, inputs, services, parse);
      && (o.doc.Some? <==> |o.calls| > 0 && o.calls[|o.calls| - 1].GetRenderLimitsCall?)
      && (o.doc.Some? ==> o.calls[|o.calls| - 1] == GetRenderLimitsCall(inputs.owner, Get(inputs.params, "api_key")))
  {
  }

  /** The same for the stages from the database parameters on, which always
      ask at least one collaborator. */
  lemma {:induction false} TemplateStageFacts(tpl: Template, inputs: Inputs, services: Services,
                                              parse: string -> Result<JsValue, ErrorObject>)
    ensures var o := FromTemplate(tpl, inputs, services, parse);
      && |o.calls| > 0
      && (o.doc.Some? <==> o.calls[|o.calls| - 1].GetRenderLimitsCall?)
      && (o.doc.Some? ==> o.calls[|o.calls| - 1] == GetRenderLimitsCall(inputs.owner, Get(inputs.params, "api_key")))
  {
    var owner := inputs.owner;
    match services.pgConnection.getDatabaseParams(owner)
    case Failure(_) =>
    case Success(db) =>
      match services.metadataBackend.getUserMapKey(owner)
      case Failure(_) =>
      case Success(apiKey) =>
        var rp := WithDatabaseParams(WithUser(inputs.params, owner), db);
        var inner := FromApiKey(tpl, rp, apiKey, inputs, services, parse);
        var asked := [GetDatabaseParamsCall(owner), GetUserMapKeyCall(owner)];
        ApiKeyStageFacts(tpl, rp, apiKey, inputs, services, parse);
        if |inner.calls| > 0 {
          assert (asked + inner.calls)[|asked + inner.calls| - 1] == inner.calls[|inner.calls| - 1];
        }
  }

  /** A run of the pipeline asks at least one collaborator; it stores a map
      configuration exactly when its last request was for the render limits,
      and that request carries the request's `api_key` parameter rather than
      the key fetched from the metadata backend. */
  lemma {:induction false} ResolveLastRequest(m: Memo, inputs: Inputs, services: Services, parse: string -> Result<JsValue, ErrorObject>)
    requires !Resolved(m)
    ensures var r := Resolve(m, inputs, services, parse);
      && |r.calls| > |m.calls|
      && (r.mapConfig.Some? <==> r.calls[|r.calls| - 1].GetRenderLimitsCall?)
      && (r.mapConfig.Some? ==> r.calls[|r.calls| - 1] == GetRenderLimitsCall(inputs.owner, Get(inputs.params, "api_key")))
  {
    var r := Resolve(m, inputs, services, parse);
    var t := GetTemplateSpec(m, inputs, services.templateMaps);
    if t.err.Some? {
      var o := FetchTemplate(services.templateMaps, inputs.owner, inputs.templateName, inputs.authToken);
      assert r.calls == m.calls + o.calls;
      assert r.calls[|r.calls| - 1] == o.calls[|o.calls| - 1];
    } else {
      var o := FromTemplate(t.template.value, inputs, services, parse);
      TemplateStageFacts(t.template.value, inputs, services, parse);
      assert r.calls == t.calls + o.calls;
      assert r.calls[|r.calls| - 1] == o.calls[|o.calls| - 1];
    }
  }

  /** A missing template fails with the 404 "not found" error after a single
      request, and the session records it. */
  lemma MissingTemplateFails(m: Memo, inputs: Inputs, services: Services, parse: string -> Result<JsValue, ErrorObject>)
    requires !Resolved(m) && m.template.None?
    requires services.templateMaps.getTemplate(inputs.owner, inputs.templateName) == Success(None)
    ensures var r := Resolve(m, inputs, services, parse);
      && r.err == Some(TemplateNotFound(inputs.templateName, inputs.owner))
      && r.err.value.httpStatus == Some(404)
      && r.err.value.message == "Template '" + inputs.templateName + "' of user '" + inputs.owner + "' not found"
      && r.mapConfig.None? && r.template.None? && r.rendererParams.None?
      && r.calls == m.calls + [GetTemplateCall(inputs.owner, inputs.templateName)]
  {
  }

  /** Whatever stage fails, the session ends with the error stored and
      `context.limits` set to `{}`; the map configuration is kept only when
      the failing stage was the render-limits lookup, which runs after the
      adapter has produced it. */
  lemma FailureIsMemoised(m: Memo, inputs: Inputs, services: Services, parse: string -> Result<JsValue, ErrorObject>)
    requires !Resolved(m)
    ensures var r := Resolve(m, inputs, services, parse);
      && (r.err.Some? ==>
            && r.context.limits == Some(EmptyObject)
            && (r.mapConfig.Some? <==> r.calls[|r.calls| - 1].GetRenderLimitsCall?))
      && Resolve(r, inputs, services, parse) == r
  {
    ResolveLastRequest(m, inputs, services, parse);
  }

  /** The error the stages from the template parameters on store: the
      malformed-config error, or else the error of the first of `instance`,
      the adapter and the limits lookup that fails; none when all succeed. */
  lemma ApiKeyStageError(tpl: Template, rp: Params, apiKey: JsValue, inputs: Inputs,
                         services: Services, parse: string -> Result<JsValue, ErrorObject>)
    ensures var o := FromApiKey(tpl, rp, apiKey, inputs, services, parse);
      var owner := inputs.owner;
      var templateParams := TemplateParams(inputs.config, parse);
      && (templateParams.Failure? ==> o.err == Some(MalformedConfig))
      && (templateParams.Success? ==>
            var instance := services.templateMaps.instance(tpl, templateParams.value);
            && (instance.Failure? ==> o.err == Some(instance.error))
            && (instance.Success? ==>
                  var ctx := EmptyContext.(templateParams := Some(templateParams.value),
                                           analysisConfiguration := Some(AnalysisConfigurationOf(owner, rp, apiKey)));
                  var adapted := services.mapConfigAdapter.getMapConfig(owner, instance.value, rp, ctx);
                  && (adapted.result.Failure? ==> o.err == Some(adapted.result.error))
                  && (adapted.result.Success? ==>
                        var limits := services.userLimitsApi.getRenderLimits(owner, Get(inputs.params, "api_key"));
                        && (limits.Failure? ==> o.err == Some(limits.error))
                        && (limits.Success? ==> o.err.None?))))
  {
  }

  /** The error the stages from the database parameters on store: the
      connection's error, else the metadata backend's, else whatever the
      later stages store. */
  lemma TemplateStageError(tpl: Template, inputs: Inputs, services: Services,
                           parse: string -> Result<JsValue, ErrorObject>)
    ensures var o := FromTemplate(tpl, inputs, services, parse);
      var owner := inputs.owner;
      var db := services.pgConnection.getDatabaseParams(owner);
      && (db.Failure? ==> o.err == Some(db.error))
      && (db.Success? ==>
            var apiKey := services.metadataBackend.getUserMapKey(owner);
            && (apiKey.Failure? ==> o.err == Some(apiKey.error))
            && (apiKey.Success? ==>
                  o.err == FromApiKey(tpl, WithDatabaseParams(WithUser(inputs.params, owner), db.value),
                                      apiKey.value, inputs, services, parse).err))
  {
  }

  /** A resolution stores the error of the first stage that fails, passed on
      as it is: the template fetch and its checks, the database parameters,
      the API key, the template parameters (the malformed-config error), the
      instance, the adapter and the render limits, in that order. It stores
      no error exactly when every stage succeeds. */
  lemma {:induction false} FailureIsFirstStageError(m: Memo, inputs: Inputs, services: Services,
                                                    parse: string -> Result<JsValue, ErrorObject>)
    requires !Resolved(m)
    ensures var r := Resolve(m, inputs, services, parse);
      var owner := inputs.owner;
      var fetched := FetchTemplate(services.templateMaps, owner, inputs.templateName, inputs.authToken);
      && (m.template.None? && fetched.result.Failure? ==> r.err == Some(fetched.result.error))
      && (m.template.Some? || fetched.result.Success? ==>
            var tpl := if m.template.Some? then m.template.value else fetched.result.value;
            var db := services.pgConnection.getDatabaseParams(owner);
            && (db.Failure? ==> r.err == Some(db.error))
            && (db.Success? ==>
                  var apiKey := services.metadataBackend.getUserMapKey(owner);
                  var rp := WithDatabaseParams(WithUser(inputs.params, owner), db.value);
                  var templateParams := TemplateParams(inputs.config, parse);
                  && (apiKey.Failure? ==> r.err == Some(apiKey.error))
                  && (apiKey.Success? && templateParams.Failure? ==> r.err == Some(MalformedConfig))
                  && (apiKey.Success? && templateParams.Success? ==>
                        var instance := services.templateMaps.instance(tpl, templateParams.value);
                        && (instance.Failure? ==> r.err == Some(instance.error))
                        && (instance.Success? ==>
                              var ctx := EmptyContext.(templateParams := Some(templateParams.value),
                                                       analysisConfiguration := Some(AnalysisConfigurationOf(owner, rp, apiKey.value)));
                              var adapted := services.mapConfigAdapter.getMapConfig(owner, instance.value, rp, ctx);
                              && (adapted.result.Failure? ==> r.err == Some(adapted.result.error))
                              && (adapted.result.Success? ==>
                                    var limits := services.userLimitsApi.getRenderLimits(owner, Get(inputs.params, "api_key"));
                                    && (limits.Failure? ==> r.err == Some(limits.error))
                                    && (limits.Success? ==> r.err.None?))))))
  {
    var t := GetTemplateSpec(m, inputs, services.templateMaps);
    if t.err.None? {
      var tpl := t.template.value;
      var owner := inputs.owner;
      TemplateStageError(tpl, inputs, services, parse);
      var db := services.pgConnection.getDatabaseParams(owner);
      var apiKey := services.metadataBackend.getUserMapKey(owner);
      if db.Success? && apiKey.Success? {
        ApiKeyStageError(tpl, WithDatabaseParams(WithUser(inputs.params, owner), db.value), apiKey.value,
                         inputs, services, parse);
      }
    }
  }

  /** On success the renderer parameters are the caller's parameters plus
      `user = owner`, overwritten by the five database fields; the context
      holds the template parameters and the limits (`{}` when falsy). */
  lemma SuccessShape(m: Memo, inputs: Inputs, services: Services, parse: string -> Result<JsValue, ErrorObject>)
    requires !Resolved(m)
    ensures var r := Resolve(m, inputs, services, parse);
      r.err.None? ==>
        && services.pgConnection.getDatabaseParams(inputs.owner).Success?
        && r.rendererParams == Some(WithDatabaseParams(WithUser(inputs.params, inputs.owner),
                                                       services.pgConnection.getDatabaseParams(inputs.owner).value))
        && TemplateParams(inputs.config, parse).Success?
        && r.context.templateParams == Some(TemplateParams(inputs.config, parse).value)
        && r.mapConfig.Some? && r.template.Some?
        && (m.template.Some? ==> r.template == m.template)
        && (m.template.None? ==>
              r.template == Some(FetchTemplate(services.templateMaps, inputs.owner, inputs.templateName, inputs.authToken).result.value))
        && services.userLimitsApi.getRenderLimits(inputs.owner, Get(inputs.params, "api_key")).Success?
        && r.context.limits == Some(Or(services.userLimitsApi.getRenderLimits(inputs.owner, Get(inputs.params, "api_key")).value, EmptyObject))
  {
  }

  /** On success the stored map configuration is `new MapConfig(document,
      datasource)` for the adapter's answer on the instanced template: the
      stored template instanced with the parsed template parameters, handed
      to the adapter with the renderer parameters and a context holding the
      template parameters and the analysis configuration built from the
      fetched API key. */
  lemma {:induction false} SuccessMapConfig(m: Memo, inputs: Inputs, services: Services,
                                            parse: string -> Result<JsValue, ErrorObject>)
    requires !Resolved(m)
    ensures var r := Resolve(m, inputs, services, parse);
      var owner := inputs.owner;
      r.err.None? ==>
        && r.template.Some? && r.rendererParams.Some?
        && TemplateParams(inputs.config, parse).Success?
        && services.metadataBackend.getUserMapKey(owner).Success?
        && var templateParams := TemplateParams(inputs.config, parse).value;
           var instance := services.templateMaps.instance(r.template.value, templateParams);
           && instance.Success?
           && var ctx := EmptyContext.(templateParams := Some(templateParams),
                                       analysisConfiguration := Some(AnalysisConfigurationOf(
                                         owner, r.rendererParams.value, services.metadataBackend.getUserMapKey(owner).value)));
              var adapted := services.mapConfigAdapter.getMapConfig(owner, instance.value, r.rendererParams.value, ctx);
              && adapted.result.Success?
              && r.mapConfig == Some(MapConfig(adapted.result.value, adapted.datasource))
              && r.context.datasource == adapted.datasource
  {
    var t := GetTemplateSpec(m, inputs, services.templateMaps);
    if t.err.None? {
      var o := FromTemplate(t.template.value, inputs, services, parse);
    }
  }

  /** The renderer parameters: a copy of the caller's parameters with `user`
      set to the owner, then the five database fields written over it;
      every other property is the caller's. */
  lemma RendererParamsFields(params: Params, owner: string, db: DatabaseParams)
    ensures var rp0 := WithUser(params, owner);
      var rp := WithDatabaseParams(rp0, db);
      && rp0.Keys == params.Keys + {"user"}
      && rp.Keys == params.Keys + {"user", "dbuser", "dbpass", "dbhost", "dbport", "dbname"}
      && Get(rp0, "user") == Str(owner) && Get(rp, "user") == Str(owner)
      && Get(rp, "dbuser") == db.dbuser && Get(rp, "dbpass") == db.dbpass && Get(rp, "dbhost") == db.dbhost
      && Get(rp, "dbport") == db.dbport && Get(rp, "dbname") == db.dbname
      && (forall k :: k != "user" ==> Get(rp0, k) == Get(params, k))
      && (forall k :: k !in {"user", "dbuser", "dbpass", "dbhost", "dbport", "dbname"} ==> Get(rp, k) == Get(params, k))
  {
  }

  /** The analysis configuration, when the run got that far, is built from
      the renderer parameters and the fetched API key. */
  lemma ApiKeyStageAnalysis(tpl: Template, rp: Params, apiKey: JsValue, inputs: Inputs,
                            services: Services, parse: string -> Result<JsValue, ErrorObject>)
    ensures var o := FromApiKey(tpl, rp, apiKey, inputs, services, parse);
      o.context.analysisConfiguration.Some? ==>
        o.context.analysisConfiguration.value == AnalysisConfigurationOf(inputs.owner, rp, apiKey)
  {
  }

  /** The stages from the database parameters on keep the caller's
      properties outside `user` and the five database fields, and hand the
      analysis configuration the caller's `dbpassword`. */
  lemma {:induction false} TemplateStageParams(tpl: Template, inputs: Inputs, services: Services,
                                               parse: string -> Result<JsValue, ErrorObject>)
    ensures var o := FromTemplate(tpl, inputs, services, parse);
      && (forall k :: k !in {"user", "dbuser", "dbpass", "dbhost", "dbport", "dbname"} ==>
            Get(o.rendererParams, k) == Get(inputs.params, k))
      && (o.context.analysisConfiguration.Some? ==>
            o.context.analysisConfiguration.value.db.pass == Get(inputs.params, "dbpassword"))
  {
    var owner := inputs.owner;
    match services.pgConnection.getDatabaseParams(owner)
    case Failure(_) =>
      RendererParamsFields(inputs.params, owner, DatabaseParams(Undefined, Undefined, Undefined, Undefined, Undefined));
    case Success(db) =>
      RendererParamsFields(inputs.params, owner, db);
      match services.metadataBackend.getUserMapKey(owner)
      case Failure(_) =>
      case Success(apiKey) =>
        var rp := WithDatabaseParams(WithUser(inputs.params, owner), db);
        ApiKeyStageAnalysis(tpl, rp, apiKey, inputs, services, parse);
        assert Get(rp, "dbpassword") == Get(inputs.params, "dbpassword");
  }

  /** Outside `user` and the five database fields, the renderer parameters
      agree with the caller's parameters; in particular `dbpassword` is the
      caller's own (usually missing) value, and that is what the analysis
      configuration receives as the database password. */
  lemma {:induction false} AnalysisPasswordComesFromRequest(m: Memo, inputs: Inputs, services: Services, parse: string -> Result<JsValue, ErrorObject>)
    requires !Resolved(m)
    ensures var r := Resolve(m, inputs, services, parse);
      && (r.rendererParams.Some? ==>
            forall k :: k !in {"user", "dbuser", "dbpass", "dbhost", "dbport", "dbname"} ==>
              Get(r.rendererParams.value, k) == Get(inputs.params, k))
      && (r.context.analysisConfiguration.Some? ==>
            r.context.analysisConfiguration.value.db.pass == Get(inputs.params, "dbpassword"))
  {
    var t := GetTemplateSpec(m, inputs, services.templateMaps);
    if t.err.None? {
      var o := FromTemplate(t.template.value, inputs, services, parse);
      TemplateStageParams(t.template.value, inputs, services, parse);
      assert Resolve(m, inputs, services, parse) == Settle(t, o);
    }
  }

  // ---------------------------------------------------------------------
  // The shared affected-tables cache

  /** The process-wide cache, keyed on (renderer parameters, map config id). */
  class AffectedTablesCache {
    var entries: map<(Params, string), AffectedTables>

    constructor ()
      ensures entries == map[]
    {
      entries := map[];
    }

    function HasAffectedTables(dbname: Params, token: string): bool
      reads this
    {
      (dbname, token) in entries
    }

    function Get(dbname: Params, token: string): AffectedTables
      reads this
      requires HasAffectedTables(dbname, token)
    {
      entries[(dbname, token)]
    }

    method Set(dbname: Params, token: string, tables: AffectedTables)
      modifies this
      ensures entries == old(entries)[(dbname, token) := tables]
    {
      entries := entries[(dbname, token) := tables];
    }
  }

  // ---------------------------------------------------------------------
  // The provider

  class Provider {
    const templateMaps: TemplateMaps
    const pgConnection: PgConnection
    const metadataBackend: MetadataBackend
    const userLimitsApi: UserLimitsApi
    const mapConfigAdapter: MapConfigAdapter
    const affectedTablesCache: AffectedTablesCache

    const owner: string
    /** `templateName(templateId)`, fixed at construction; `getTemplateName`
      returns it. */
    const templateName: string
    const config: JsValue
    const authToken: JsValue
    const params: JsObject

    var cacheBuster: int
    var template: Option<Template>
    /** Cleared by `reset`; the provider never stores a value here. */
    var affectedTables: Option<AffectedTables>
    var err: Option<ErrorObject>
    var mapConfig: Option<MapConfig>
    var rendererParams: JsObject?
    var context: Context
    var analysesResults: JsValue
    ghost var calls: seq<Call>

    ghost predicate Valid()
      reads this
    {
      mapConfig.Some? ==> rendererParams != null
    }

    ghost function Snapshot(): Memo
      reads this, rendererParams
    {
      Memo(err, template, mapConfig, if rendererParams == null then None else Some(rendererParams.props),
           context, analysesResults, calls)
    }

    function CurrentInputs(): Inputs
      reads this, params
    {
      Inputs(owner, templateName, config, authToken, params.props)
    }

    function CurrentServices(): Services
    {
      Services(templateMaps, pgConnection, metadataBackend, userLimitsApi, mapConfigAdapter)
    }

    /** `now` stands for `Date.now()`; `templateNameOf` is the module-level
      `templateName` function of the template store's module. */
    constructor (templateMaps: TemplateMaps, pgConnection: PgConnection, metadataBackend: MetadataBackend,
                 userLimitsApi: UserLimitsApi, mapConfigAdapter: MapConfigAdapter,
                 affectedTablesCache: AffectedTablesCache, owner: string, templateId: string,
                 config: JsValue, authToken: JsValue, params: JsObject, now: int,
                 templateNameOf: string -> string)
      ensures Valid()
      ensures this.templateMaps == templateMaps && this.pgConnection == pgConnection
      ensures this.metadataBackend == metadataBackend && this.userLimitsApi == userLimitsApi
      ensures this.mapConfigAdapter == mapConfigAdapter && this.affectedTablesCache == affectedTablesCache
      ensures this.owner == owner
      ensures this.templateName == templateNameOf(templateId)
      ensures this.config == config && this.authToken == authToken && this.params == params
      ensures cacheBuster == now && template.None? && err.None? && mapConfig.None?
      ensures rendererParams == null && context == EmptyContext && analysesResults == Arr([]) && calls == []
      ensures !Resolved(Snapshot())
    {
      this.templateMaps := templateMaps;
      this.pgConnection := pgConnection;
      this.metadataBackend := metadataBackend;
      this.userLimitsApi := userLimitsApi;
      this.mapConfigAdapter := mapConfigAdapter;
      this.owner := owner;
      this.templateName := templateNameOf(templateId);
      this.config := config;
      this.authToken := authToken;
      this.params := params;
      this.cacheBuster := now;
      this.template := None;
      this.affectedTablesCache := affectedTablesCache;
      this.affectedTables := None;
      this.err := None;
      this.mapConfig := None;
      this.rendererParams := null;
      this.context := EmptyContext;
      this.analysesResults := Arr([]);
      this.calls := [];
    }

    /** `getTemplate`: the stored `(err, template)` when either is set,
      otherwise fetch, check and store. */
    method GetTemplate() returns (e: Option<ErrorObject>, tpl: Option<Template>)
      modifies this
      ensures Snapshot() == GetTemplateSpec(old(Snapshot()), CurrentInputs(), templateMaps)
      ensures e == err && tpl == template
      ensures rendererParams == old(rendererParams) && cacheBuster == old(cacheBuster)
      ensures affectedTables == old(affectedTables)
    {
      if err.Some? || template.Some? {
        return err, template;
      }
      var o := FetchTemplate(templateMaps, owner, templateName, authToken);
      calls := calls + o.calls;
      if o.result.Failure? {
        err, template := Some(o.result.error), None;
      } else {
        err, template := None, Some(o.result.value);
      }
      e, tpl := err, template;
    }

    /** `setDBParams(user, target)`: on success the five database fields are
      written into `target`; on failure it is left as it was. */
    method SetDBParams(cdbuser: string, target: JsObject) returns (e: Option<ErrorObject>)
      modifies target
      ensures match pgConnection.getDatabaseParams(cdbuser)
        case Failure(x) => e == Some(x) && target.props == old(target.props)
        case Success(db) => e.None? && target.props == WithDatabaseParams(old(target.props), db)
    {
      match pgConnection.getDatabaseParams(cdbuser)
      case Failure(x) =>
        return Some(x);
      case Success(db) =>
        target.props := target.props["dbuser" := db.dbuser];
        target.props := target.props["dbpass" := db.dbpass];
        target.props := target.props["dbhost" := db.dbhost];
        target.props := target.props["dbport" := db.dbport];
        target.props := target.props["dbname" := db.dbname];
        return None;
    }

    /** `cacheAndReturnMapConfig`. */
    method CacheAndReturn(e: Option<ErrorObject>, doc: Option<MapConfigDocument>, rp: JsObject?,
                          ctx: Context, renderLimits: JsValue, ghost newCalls: seq<Call>)
      requires doc.Some? ==> rp != null
      modifies this
      ensures Valid()
      ensures Snapshot() == Finish(old(Snapshot()), e, doc, if rp == null then None else Some(rp.props),
                                   ctx, renderLimits, newCalls)
      ensures rendererParams == rp && cacheBuster == old(cacheBuster) && affectedTables == old(affectedTables)
    {
      err := e;
      mapConfig := if doc.Some? then Some(MapConfig(doc.value, ctx.datasource)) else None;
      analysesResults := Or(ctx.analysesResults, Arr([]));
      rendererParams := rp;
      context := ctx.(limits := Some(Or(renderLimits, EmptyObject)));
      calls := newCalls;
    }

    /** `getMapConfig`: when the session is resolved, the stored tuple is
      returned and nothing is asked or changed; otherwise the pipeline runs
      once and its outcome is stored. The caller's `params` object is never
      written: the renderer parameters are a fresh object. */
    method GetMapConfig(parse: string -> Result<JsValue, ErrorObject>)
      returns (e: Option<ErrorObject>, mc: Option<MapConfig>, rp: JsObject?, ctx: Context)
      requires Valid()
      modifies this
      ensures Valid()
      ensures Snapshot() == Resolve(old(Snapshot()), CurrentInputs(), CurrentServices(), parse)
      ensures e == err && mc == mapConfig && rp == rendererParams && ctx == context
      ensures old(Resolved(Snapshot())) ==> unchanged(this)
      ensures rendererParams == old(rendererParams) || rendererParams == null || fresh(rendererParams)
      ensures cacheBuster == old(cacheBuster) && affectedTables == old(affectedTables)
      ensures unchanged(params)
    {
      if err.Some? || mapConfig.Some? {
        return err, mapConfig, rendererParams, context;
      }
      var te, tpl := GetTemplate();
      if te.Some? {
        CacheAndReturn(te, None, null, EmptyContext, Undefined, calls);
      } else {
        template := tpl;
        RunWithTemplate(tpl.value, parse);
      }
      return err, mapConfig, rendererParams, context;
    }

    /** `prepareDbParams` and `getUserApiKey`: a fresh renderer-parameters
      object holding the caller's parameters and `user`, completed with the
      owner's database parameters. */
    method RunWithTemplate(tpl: Template, parse: string -> Result<JsValue, ErrorObject>)
      modifies this
      ensures Valid()
      ensures Snapshot() == Settle(old(Snapshot()), FromTemplate(tpl, CurrentInputs(), CurrentServices(), parse))
      ensures fresh(rendererParams)
      ensures cacheBuster == old(cacheBuster) && affectedTables == old(affectedTables)
    {
      ghost var start := calls;
      ghost var expected := FromTemplate(tpl, CurrentInputs(), CurrentServices(), parse);
      var renderer := new JsObject(WithUser(params.props, owner));
      ghost var asked := [GetDatabaseParamsCall(owner)];
      var dbErr := SetDBParams(owner, renderer);
      if dbErr.Some? {
        assert expected == Outcome(dbErr, None, renderer.props, EmptyContext, Undefined, asked);
        CacheAndReturn(dbErr, None, renderer, EmptyContext, Undefined, start + asked);
        return;
      }
      ghost var db := pgConnection.getDatabaseParams(owner).value;
      assert renderer.props == WithDatabaseParams(WithUser(params.props, owner), db);
      asked := asked + [GetUserMapKeyCall(owner)];
      var keyResult := metadataBackend.getUserMapKey(owner);
      if keyResult.Failure? {
        assert expected == Outcome(Some(keyResult.error), None, renderer.props, EmptyContext, Undefined, asked);
        CacheAndReturn(Some(keyResult.error), None, renderer, EmptyContext, Undefined, start + asked);
        return;
      }
      ghost var o := FromApiKey(tpl, renderer.props, keyResult.value, CurrentInputs(), CurrentServices(), parse);
      assert expected == o.(calls := asked + o.calls);
      assert (start + asked) + o.calls == start + (asked + o.calls);
      calls := start + asked;
      RunWithApiKey(tpl, renderer, keyResult.value, parse);
    }

    /** `prepareParams`, `instantiateTemplate`, `prepareAdapterMapConfig` and
      `prepareContextLimits`, ending in `cacheAndReturnMapConfig`. */
    method RunWithApiKey(tpl: Template, renderer: JsObject, apiKey: JsValue, parse: string -> Result<JsValue, ErrorObject>)
      modifies this
      ensures Valid()
      ensures Snapshot() == Settle(old(Snapshot()), FromApiKey(tpl, renderer.props, apiKey, CurrentInputs(),
                                                              CurrentServices(), parse))
      ensures rendererParams == renderer
      ensures cacheBuster == old(cacheBuster) && affectedTables == old(affectedTables)
    {
      ghost var expected := FromApiKey(tpl, renderer.props, apiKey, CurrentInputs(), CurrentServices(), parse);
      ghost var start := calls;
      var templateParams := TemplateParams(config, parse);
      if templateParams.Failure? {
        assert expected == Outcome(Some(templateParams.error), None, renderer.props, EmptyContext, Undefined, []);
        CacheAndReturn(Some(templateParams.error), None, renderer, EmptyContext, Undefined, start);
        return;
      }
      var newContext := EmptyContext.(templateParams := Some(templateParams.value));
      ghost var asked := [InstanceCall(tpl, templateParams.value)];
      var requestMapConfig := templateMaps.instance(tpl, templateParams.value);
      if requestMapConfig.Failure? {
        assert expected == Outcome(Some(requestMapConfig.error), None, renderer.props, newContext, Undefined, asked);
        CacheAndReturn(Some(requestMapConfig.error), None, renderer, newContext, Undefined, start + asked);
        return;
      }
      newContext := newContext.(analysisConfiguration := Some(AnalysisConfigurationOf(owner, renderer.props, apiKey)));
      asked := asked + [AdapterCall(owner, requestMapConfig.value, renderer.props)];
      var adapted := mapConfigAdapter.getMapConfig(owner, requestMapConfig.value, renderer.props, newContext);
      newContext := newContext.(datasource := adapted.datasource, analysesResults := adapted.analysesResults);
      if adapted.result.Failure? {
        assert expected == Outcome(Some(adapted.result.error), None, renderer.props, newContext, Undefined, asked);
        CacheAndReturn(Some(adapted.result.error), None, renderer, newContext, Undefined, start + asked);
        return;
      }
      var apiKeyParam := Js.Get(params.props, "api_key");
      asked := asked + [GetRenderLimitsCall(owner, apiKeyParam)];
      var renderLimits := userLimitsApi.getRenderLimits(owner, apiKeyParam);
      if renderLimits.Failure? {
        assert expected == Outcome(Some(renderLimits.error), Some(adapted.result.value), renderer.props, newContext, Undefined, asked);
        CacheAndReturn(Some(renderLimits.error), Some(adapted.result.value), renderer, newContext, Undefined, start + asked);
      } else {
        assert expected == Outcome(None, Some(adapted.result.value), renderer.props, newContext, renderLimits.value, asked);
        CacheAndReturn(None, Some(adapted.result.value), renderer, newContext, renderLimits.value, start + asked);
      }
    }

    /** `reset`: forget the template, the error and the map configuration and
      take a new cache buster; renderer parameters, context and analyses
      results stay. */
    method Reset(now: int)
      modifies this
      ensures Valid()
      ensures template.None? && affectedTables.None? && err.None? && mapConfig.None? && cacheBuster == now
      ensures rendererParams == old(rendererParams) && context == old(context)
      ensures analysesResults == old(analysesResults) && calls == old(calls)
      ensures !Resolved(Snapshot())
    {
      template := None;
      affectedTables := None;
      err := None;
      mapConfig := None;
      cacheBuster := now;
    }

    function GetCacheBuster(): (r: int)
      reads this
      ensures r == cacheBuster
    {
      cacheBuster
    }

    /** The values interpolated into the keys. */
    function KeyValues(lib: Libraries): Params
      reads this, params
    {
      CacheKeys.KeyValues(params.props, owner, templateName, authToken,
                          CacheKeys.ConfigHash(config, lib.stringify, lib.md5Hex))
    }

    /** `createKey(base)`. */
    function CreateKey(base: bool, lib: Libraries): (r: string)
      reads this, params
      ensures CacheKeys.BaseKey(KeyValues(lib)) <= r
      ensures base <==> r == CacheKeys.BaseKey(KeyValues(lib))
    {
      CacheKeys.CreateKey(KeyValues(lib), base)
    }

    /** `getKey()`: the full key; the provider's own filter keeps it. */
    function GetKey(lib: Libraries): (r: string)
      reads this, params
      ensures Filter(r, lib)
      ensures r != CreateKey(true, lib)
    {
      CreateKey(false, lib)
    }

    /** `filter(key)`, read as a prefix test against the base key. */
    function Filter(key: string, lib: Libraries): (r: bool)
      reads this, params
      ensures r <==> key != "" && CreateKey(true, lib) <= key
    {
      CacheKeys.Filter(key, CreateKey(true, lib))
    }

    /** `getAffectedTables`: settle the session, then consult the shared
      cache, and query the database only on a miss with a non-empty query. */
    method GetAffectedTables(lib: Libraries) returns (r: Result<Option<AffectedTables>, ErrorObject>)
      requires Valid()
      modifies this, affectedTablesCache
      ensures Valid()
      ensures var s := Resolve(old(Snapshot()), CurrentInputs(), CurrentServices(), lib.parse);
              var o := AffectedTablesLookup(s, old(affectedTablesCache.entries), owner, pgConnection, lib);
              r == o.result && affectedTablesCache.entries == o.entries && Snapshot() == s.(calls := s.calls + o.calls)
      ensures unchanged(params)
      ensures cacheBuster == old(cacheBuster) && affectedTables == old(affectedTables)
    {
      var e, mc, rp, ctx := GetMapConfig(lib.parse);
      r := LookupAffectedTables(lib);
    }

    /** The steps of `getAffectedTables` after `getMapConfig`: only the
      shared cache and the request trace change. */
    method LookupAffectedTables(lib: Libraries) returns (r: Result<Option<AffectedTables>, ErrorObject>)
      requires Resolved(Snapshot()) && WellFormed(Snapshot())
      modifies this`calls, affectedTablesCache
      ensures var o := AffectedTablesLookup(old(Snapshot()), old(affectedTablesCache.entries), owner, pgConnection, lib);
              r == o.result && affectedTablesCache.entries == o.entries && calls == old(calls) + o.calls
    {
      ghost var before := affectedTablesCache.entries;
      ghost var s := Snapshot();
      ghost var expected := AffectedTablesLookup(s, before, owner, pgConnection, lib);
      if err.Some? {
        return Failure(err.value);
      }
      var dbname := rendererParams.props;
      var token := lib.mapConfigId(mapConfig.value);
      assert (dbname, token) == CacheKeyOf(s, lib);
      if affectedTablesCache.HasAffectedTables(dbname, token) {
        return Success(Some(affectedTablesCache.Get(dbname, token)));
      }
      var queries := CollectQueries(mapConfig.value.document.layers);
      var sql := ArrayJoin(queries, ";");
      if sql == "" {
        return Success(None);
      }
      ghost var asked := [GetConnectionCall(owner)];
      var connection := pgConnection.getConnection(owner);
      if connection.Failure? {
        assert expected == LookupOutcome(Failure(connection.error), before, asked);
        calls := calls + asked;
        return Failure(connection.error);
      }
      asked := asked + [AffectedTablesQueryCall(sql)];
      calls := calls + asked;
      var tables := lib.getAffectedTablesFromQuery(connection.value, sql);
      if tables.Failure? {
        assert expected == LookupOutcome(Failure(tables.error), before, asked);
        return Failure(tables.error);
      }
      assert expected == LookupOutcome(Success(Some(tables.value)), before[(dbname, token) := tables.value], asked);
      affectedTablesCache.Set(dbname, token, tables.value);
      return Success(Some(tables.value));
    }
  }
}

=== FILE: style_errors.dfy ===
/** The rewrite the map controller applies to tile error messages. Mapnik
    reports a style error as `<problem> in style 'layer<N>'...`; the controller
    matches the message against the regular expression
    `(.*) in style 'layer([0-9]+)'` and, when it matches, replaces the message
    with `'style' + N + ': ' + <problem>`.

    A match is described by three numbers: the first group spans
    `s[start..end]`, the literal ` in style 'layer` starts at `end`, and the
    second group is the `digits` characters after it, followed by a quote.
    JavaScript takes the leftmost match, and among matches at the same start
    the one its greedy quantifiers find first: the longest first group, then
    the longest digit group. The regular-expression `.` matches every
    character except the four line terminators. */
module StyleErrors {
  import opened Wrappers
  import Text

  const Marker: string := " in style 'layer"

  /** The characters `.` does not match. */
  predicate IsLineTerminator(c: char)
  {
    c == '\n' || c == '\r' || c == '\U{2028}' || c == '\U{2029}'
  }

  /** `s[lo..hi]` holds no line terminator, so `.*` can span it. */
  predicate NoLineTerminator(s: string, lo: int, hi: int)
  {
    0 <= lo <= hi <= |s| && forall k :: lo <= k < hi ==> !IsLineTerminator(s[k])
  }

  /** `s[lo..hi]` is made of decimal digits. */
  predicate AllDigits(s: string, lo: int, hi: int)
  {
    0 <= lo <= hi <= |s| && forall k :: lo <= k < hi ==> Text.IsDigit(s[k])
  }

  /** ` in style 'layer([0-9]+)'` matches at `end` with a digit group of
      length `digits`. */
  predicate TailMatches(s: string, end: int, digits: int)
  {
    0 <= end && 1 <= digits && end + |Marker| + digits < |s| &&
    s[end..end + |Marker|] == Marker &&
    AllDigits(s, end + |Marker|, end + |Marker| + digits) &&
    s[end + |Marker| + digits] == '\''
  }

  /** The whole pattern matches with the first group `s[start..end]`. */
  predicate RegexMatch(s: string, start: int, end: int, digits: int)
  {
    0 <= start <= end && NoLineTerminator(s, start, end) && TailMatches(s, end, digits)
  }

  datatype StyleMatch = StyleMatch(start: nat, end: nat, digits: nat)

  /** `m` is the match JavaScript reports rather than the one at
      (`start`, `end`, `digits`): it starts further left, or at the same place
      with a first group at least as long, or with the same first group and a
      digit group at least as long. */
  predicate PreferredTo(m: StyleMatch, start: int, end: int, digits: int)
  {
    m.start < start || (m.start == start && (end < m.end || (end == m.end && digits <= m.digits)))
  }

  /** Length of the run of digits that starts at `p`. */
  function DigitRun(s: string, p: nat): (d: nat)
    requires p <= |s|
    ensures p + d <= |s| && AllDigits(s, p, p + d)
    ensures p + d == |s| || !Text.IsDigit(s[p + d])
    decreases |s| - p
  {
    if p == |s| || !Text.IsDigit(s[p]) then 0 else 1 + DigitRun(s, p + 1)
  }

  /** The tail of the pattern can match at `end`. A quote is not a digit, so
      the digit group can only be the whole run of digits there. */
  predicate TagAt(s: string, end: int)
  {
    0 <= end && end + |Marker| <= |s| && s[end..end + |Marker|] == Marker &&
    var d := DigitRun(s, end + |Marker|);
    1 <= d && end + |Marker| + d < |s| && s[end + |Marker| + d] == '\''
  }

  /** The tail matches at `end` exactly when a tag is there, and then with the
      whole run of digits. */
  lemma TagAtIsTail(s: string, end: int, digits: int)
    ensures TailMatches(s, end, digits) ==> TagAt(s, end) && digits == DigitRun(s, end + |Marker|)
    ensures TagAt(s, end) ==> TailMatches(s, end, DigitRun(s, end + |Marker|))
  {
    if TailMatches(s, end, digits) {
      var p := end + |Marker|;
      var d := DigitRun(s, p);
      assert !(d < digits) && !(digits < d);
    }
  }

  /** The first tag at or after `from`. */
  function FirstTag(s: string, from: nat): (r: Option<nat>)
    ensures r.Some? ==> from <= r.value && TagAt(s, r.value)
    ensures r.Some? ==> forall k :: from <= k < r.value ==> !TagAt(s, k)
    ensures r.None? ==> forall k :: from <= k ==> !TagAt(s, k)
    decreases |s| - from
  {
    if from + |Marker| > |s| then None
    else if TagAt(s, from) then Some(from)
    else FirstTag(s, from + 1)
  }

  /** Where the line holding position `at` begins. */
  function LineStart(s: string, at: nat): (i: nat)
    requires at <= |s|
    ensures i <= at && NoLineTerminator(s, i, at)
    ensures i == 0 || IsLineTerminator(s[i - 1])
  {
    if at == 0 || IsLineTerminator(s[at - 1]) then at else LineStart(s, at - 1)
  }

  /** Where the line holding position `at` ends: the next line terminator, or
      the end of `s`. */
  function LineEnd(s: string, at: nat): (e: nat)
    requires at <= |s|
    ensures at <= e <= |s| && NoLineTerminator(s, at, e)
    ensures e == |s| || IsLineTerminator(s[e])
    decreases |s| - at
  {
    if at == |s| || IsLineTerminator(s[at]) then at else LineEnd(s, at + 1)
  }

  /** The last tag in `[lo, hi]`, given one at `lo`. */
  function LastTag(s: string, lo: nat, hi: nat): (r: nat)
    requires lo <= hi && TagAt(s, lo)
    ensures lo <= r <= hi && TagAt(s, r)
    ensures forall k :: r < k <= hi ==> !TagAt(s, k)
    decreases hi - lo
  {
    if hi == lo || TagAt(s, hi) then hi else LastTag(s, lo, hi - 1)
  }

  /** `s.match("(.*) in style 'layer([0-9]+)'")`: the line of the first tag
      is where the leftmost match starts, and the greedy first group reaches
      the last tag on that line. */
  function MatchStyleError(s: string): (r: Option<StyleMatch>)
    ensures r.Some? ==> RegexMatch(s, r.value.start, r.value.end, r.value.digits)
  {
    match FirstTag(s, 0)
    case None => None
    case Some(first) =>
      var start := LineStart(s, first);
      var stop := LineEnd(s, first);
      var end := LastTag(s, first, stop);
      TagAtIsTail(s, end, 0);
      Some(StyleMatch(start, end, DigitRun(s, end + |Marker|)))
  }

  /** The function finds the match JavaScript reports: there is none exactly
      when the pattern matches nowhere, and otherwise it is preferred to every
      other match. */
  lemma {:induction false} MatchIsLeftmostGreedy(s: string)
    ensures MatchStyleError(s).None? <==> forall i, j, d :: !RegexMatch(s, i, j, d)
    ensures MatchStyleError(s).Some? ==>
      forall i, j, d :: RegexMatch(s, i, j, d) ==> PreferredTo(MatchStyleError(s).value, i, j, d)
  {
    var first := FirstTag(s, 0);
    if first.None? {
      forall i, j, d | RegexMatch(s, i, j, d) ensures false {
        TagAtIsTail(s, j, d);
      }
    } else {
      var m := MatchStyleError(s).value;
      var stop := LineEnd(s, first.value);
      forall i, j, d | RegexMatch(s, i, j, d) ensures PreferredTo(m, i, j, d) {
        TagAtIsTail(s, j, d);
        assert first.value <= j;
        if i == m.start {
          TagAtIsTail(s, m.end, m.digits);
        }
      }
    }
  }

  /** The group-2 text of a match: the layer number as written. */
  function LayerDigits(s: string, m: StyleMatch): string
    requires RegexMatch(s, m.start, m.end, m.digits)
  {
    s[m.end + |Marker|..m.end + |Marker| + m.digits]
  }

  /** `'style' + matches[2] + ': ' + matches[1]`. */
  function Rewritten(s: string, m: StyleMatch): (r: string)
    requires RegexMatch(s, m.start, m.end, m.digits)
    ensures |r| == 7 + m.digits + (m.end - m.start)
    ensures r[..5] == "style" && r[5 + m.digits..7 + m.digits] == ": "
    ensures forall k :: 5 <= k < 5 + m.digits ==> Text.IsDigit(r[k])
    ensures r[7 + m.digits..] == s[m.start..m.end]
  {
    "style" + LayerDigits(s, m) + ": " + s[m.start..m.end]
  }

  /** The error text after the rewrite. */
  function RewriteStyleError(msg: string): (r: string)
    ensures r == msg || (5 <= |r| < |msg| && r[..5] == "style")
  {
    match MatchStyleError(msg)
    case None => msg
    case Some(m) =>
      assert m.end + |Marker| + m.digits < |msg|;
      Rewritten(msg, m)
  }

  /** A message the pattern does not match is kept; otherwise the text is
      built from the match JavaScript reports, which is the one match
      preferred to all others. */
  lemma {:induction false} RewriteFollowsPreferredMatch(msg: string, m: StyleMatch)
    ensures (forall i, j, d :: !RegexMatch(msg, i, j, d)) ==> RewriteStyleError(msg) == msg
    ensures RegexMatch(msg, m.start, m.end, m.digits) &&
            (forall i, j, d :: RegexMatch(msg, i, j, d) ==> PreferredTo(m, i, j, d)) ==>
            RewriteStyleError(msg) == Rewritten(msg, m)
  {
    MatchIsLeftmostGreedy(msg);
    if RegexMatch(msg, m.start, m.end, m.digits) &&
       (forall i, j, d :: RegexMatch(msg, i, j, d) ==> PreferredTo(m, i, j, d)) {
      var found := MatchStyleError(msg).value;
      assert PreferredTo(found, m.start, m.end, m.digits);
      assert PreferredTo(m, found.start, found.end, found.digits);
      assert found == m;
    }
  }

  /** The marker opens with a space and an `i`, holds no other `i` and no
      line terminator. */
  lemma MarkerAt(s: string, j: int)
    requires 0 <= j && j + |Marker| <= |s| && s[j..j + |Marker|] == Marker
    ensures s[j + 1] == 'i'
    ensures forall k :: j <= k < j + |Marker| ==> !IsLineTerminator(s[k])
    ensures forall k :: j < k < j + |Marker| && s[k] == 'i' ==> k == j + 1
  {
    assert forall k :: j <= k < j + |Marker| ==> s[k] == Marker[k - j];
  }

  /** After a tag that ends the message no other tag can start. */
  lemma {:induction false} NoTagAfter(head: string, layer: string)
    requires AllDigits(layer, 0, |layer|)
    ensures forall j :: |head| < j ==> !TagAt(head + Marker + layer + "'", j)
  {
    var s := head + Marker + layer + "'";
    MarkerAt(s, |head|);
    forall j | |head| < j && TagAt(s, j) ensures false {
      MarkerAt(s, j);
    }
  }

  /** A tail match that starts before a line break ends before it. */
  lemma {:induction false} TagBeforeBreak(earlier: string, rest: string, j: int, d: int)
    requires TailMatches(earlier + "\n" + rest, j, d) && j <= |earlier|
    ensures TailMatches(earlier, j, d)
  {
    var s := earlier + "\n" + rest;
    var n := |earlier|;
    MarkerAt(s, j);
    assert s[n] == '\n';
    assert s[..n] == earlier;
    assert earlier[j..j + |Marker|] == s[j..j + |Marker|];
  }

  /** A message that ends with the tag of a layer, and whose problem text
      stays on one line, becomes `style<N>: <problem>`. */
  lemma {:induction false} RewriteNamesTheLayer(problem: string, layer: string)
    requires NoLineTerminator(problem, 0, |problem|)
    requires AllDigits(layer, 0, |layer|) && |layer| >= 1
    ensures RewriteStyleError(problem + Marker + layer + "'") == "style" + layer + ": " + problem
  {
    var s := problem + Marker + layer + "'";
    var o := |problem|;
    var m := StyleMatch(0, o, |layer|);
    assert s[o..o + |Marker|] == Marker;
    assert forall k :: o + |Marker| <= k < o + |Marker| + |layer| ==> s[k] == layer[k - o - |Marker|];
    assert TailMatches(s, o, |layer|);
    assert NoLineTerminator(s, 0, o) by {
      assert forall k :: 0 <= k < o ==> s[k] == problem[k];
    }
    NoTagAfter(problem, layer);
    TagAtIsTail(s, o, |layer|);
    forall i, j, d | RegexMatch(s, i, j, d) ensures PreferredTo(m, i, j, d) {
      TagAtIsTail(s, j, d);
    }
    assert s[o + |Marker|..o + |Marker| + |layer|] == layer;
    assert s[0..o] == problem;
    assert Rewritten(s, m) == "style" + layer + ": " + problem;
    RewriteFollowsPreferredMatch(s, m);
  }

  /** The last line's problem text followed by the tag is a match. */
  lemma {:induction false} LastLineTail(earlier: string, problem: string, layer: string, s: string)
    requires s == earlier + "\n" + problem + Marker + layer + "'"
    requires NoLineTerminator(problem, 0, |problem|)
    requires AllDigits(layer, 0, |layer|) && |layer| >= 1
    ensures RegexMatch(s, |earlier| + 1, |earlier| + 1 + |problem|, |layer|)
  {
    var o := |earlier| + 1;
    var e := o + |problem|;
    assert s[e..e + |Marker|] == Marker;
    assert forall k :: e + |Marker| <= k < e + |Marker| + |layer| ==> s[k] == layer[k - e - |Marker|];
    assert TailMatches(s, e, |layer|);
    assert NoLineTerminator(s, o, e) by {
      assert forall k :: o <= k < e ==> s[k] == problem[k - o];
    }
  }

  /** With earlier lines that hold no tag, that match is preferred to every
      other: no match starts before the line break, and none reaches further. */
  lemma {:induction false} LastLineMatch(earlier: string, problem: string, layer: string, s: string)
    requires s == earlier + "\n" + problem + Marker + layer + "'"
    requires forall j :: !TagAt(earlier, j)
    requires NoLineTerminator(problem, 0, |problem|)
    requires AllDigits(layer, 0, |layer|) && |layer| >= 1
    ensures forall i, j, d :: RegexMatch(s, i, j, d) ==>
      PreferredTo(StyleMatch(|earlier| + 1, |earlier| + 1 + |problem|, |layer|), i, j, d)
  {
    var rest := problem + Marker + layer + "'";
    assert s == earlier + "\n" + rest;
    var o := |earlier| + 1;
    var e := o + |problem|;
    var m := StyleMatch(o, e, |layer|);
    assert IsLineTerminator(s[o - 1]);
    NoTagAfter(earlier + "\n" + problem, layer);
    LastLineTail(earlier, problem, layer, s);
    TagAtIsTail(s, e, |layer|);
    forall i, j, d | RegexMatch(s, i, j, d) ensures PreferredTo(m, i, j, d) {
      TagAtIsTail(s, j, d);
      if j < o {
        TagBeforeBreak(earlier, rest, j, d);
        TagAtIsTail(earlier, j, d);
      }
    }
  }

  /** Earlier lines that do not match are dropped: the first group cannot
      cross a line break, so only the line holding the tag is reported. */
  lemma {:induction false} RewriteKeepsOneLine(earlier: string, problem: string, layer: string)
    requires forall j :: !TagAt(earlier, j)
    requires NoLineTerminator(problem, 0, |problem|)
    requires AllDigits(layer, 0, |layer|) && |layer| >= 1
    ensures RewriteStyleError(earlier + "\n" + problem + Marker + layer + "'") == "style" + layer + ": " + problem
  {
    var s := earlier + "\n" + problem + Marker + layer + "'";
    var o := |earlier| + 1;
    var e := o + |problem|;
    var m := StyleMatch(o, e, |layer|);
    assert s[e + |Marker|..e + |Marker| + |layer|] == layer;
    assert s[o..e] == problem;
    LastLineTail(earlier, problem, layer, s);
    LastLineMatch(earlier, problem, layer, s);
    RewriteFollowsPreferredMatch(s, m);
  }
}

=== FILE: text.dfy ===
/** String helpers with the semantics of the JavaScript built-ins the modelled
    code calls: `indexOf`, `replace` with a string pattern, `split(c)[0]`, and
    number-to-string conversion of integers. */
module Text {

  /** `sub` occurs in `s` at position `k`. */
  predicate OccursAt(s: string, sub: string, k: int)
  {
    0 <= k <= |s| - |sub| && s[k..k + |sub|] == sub
  }

  /** `sub` occurs somewhere in `s`. */
  predicate Contains(s: string, sub: string)
  {
    exists k :: 0 <= k <= |s| - |sub| && OccursAt(s, sub, k)
  }

  /** `s.indexOf(sub)`: the first position where `sub` occurs, or -1. */
  function IndexOf(s: string, sub: string): (r: int)
    ensures r == -1 || OccursAt(s, sub, r)
    ensures r == -1 <==> !Contains(s, sub)
    ensures forall k :: 0 <= k < r ==> !OccursAt(s, sub, k)
    decreases |s|
  {
    if |s| < |sub| then -1
    else if s[..|sub|] == sub then 0
    else
      var r' := IndexOf(s[1..], sub);
      ShiftOccurrence(s, sub);
      assert !OccursAt(s, sub, 0);
      assert forall k :: 1 <= k ==> (OccursAt(s, sub, k) <==> OccursAt(s[1..], sub, k - 1));
      if r' == -1 then -1 else r' + 1
  }

  /** An occurrence at `k + 1` in `s` is an occurrence at `k` in `s[1..]`. */
  lemma ShiftOccurrence(s: string, sub: string)
    requires |s| >= 1
    ensures forall k :: 0 <= k ==> (OccursAt(s, sub, k + 1) <==> OccursAt(s[1..], sub, k))
  {
    forall k | 0 <= k ensures OccursAt(s, sub, k + 1) <==> OccursAt(s[1..], sub, k) {
      if k <= |s| - 1 - |sub| {
        var a, b := s[k + 1..k + 1 + |sub|], s[1..][k..k + |sub|];
        assert |a| == |b| && forall j :: 0 <= j < |a| ==> a[j] == b[j];
      }
    }
  }

  /** The index of the first occurrence of `c` in `s` (requires one). */
  function FirstIndex(s: string, c: char): (i: nat)
    requires c in s
    ensures i < |s| && s[i] == c && c !in s[..i]
  {
    if s[0] == c then 0 else FirstIndex(s[1..], c) + 1
  }

  /** `s.replace(c, d)` with one-character string patterns: only the first
      occurrence of `c` is replaced. */
  function ReplaceFirst(s: string, c: char, d: char): (r: string)
    ensures |r| == |s|
    ensures c !in s ==> r == s
    ensures c in s ==> var i := FirstIndex(s, c);
      r[i] == d && r[..i] == s[..i] && r[i + 1..] == s[i + 1..]
  {
    if c in s then s[FirstIndex(s, c) := d] else s
  }

  /** `s.split(c)[0]`: everything before the first `c`, or all of `s`. */
  function BeforeFirst(s: string, c: char): (r: string)
    ensures r <= s && c !in r
    ensures r == s || s[|r|] == c
  {
    if c in s then s[..FirstIndex(s, c)] else s
  }

  function DigitChar(d: nat): (c: char)
    requires d < 10
    ensures '0' <= c <= '9'
  {
    "0123456789"[d]
  }

  predicate IsDigit(c: char)
  {
    '0' <= c <= '9'
  }

  /** Decimal notation of a natural number, as `String(n)` prints it. */
  function NatToString(n: nat): (r: string)
    ensures |r| >= 1
    ensures forall k :: 0 <= k < |r| ==> IsDigit(r[k])
    ensures n < 10 <==> |r| == 1
  {
    if n < 10 then [DigitChar(n)] else NatToString(n / 10) + [DigitChar(n % 10)]
  }

  /** Decimal notation of an integer, with a leading '-' when negative. */
  function IntToString(n: int): (r: string)
    ensures |r| >= 1
    ensures n < 0 <==> r[0] == '-'
  {
    if n < 0 then "-" + NatToString(-n) else NatToString(n)
  }

  /** `parts.join(sep)` over strings. */
  function JoinStrings(parts: seq<string>, sep: string): (r: string)
  {
    if |parts| == 0 then ""
    else if |parts| == 1 then parts[0]
    else parts[0] + sep + JoinStrings(parts[1..], sep)
  }

  /** A join of two or more parts holds at least one separator, so with a
      non-empty separator it is empty only for no parts or one empty part. */
  lemma {:induction false} JoinStringsEmpty(parts: seq<string>, sep: string)
    requires sep != ""
    ensures JoinStrings(parts, sep) == "" <==> |parts| == 0 || (|parts| == 1 && parts[0] == "")
  {
    if |parts| >= 2 {
      assert |JoinStrings(parts, sep)| >= |sep|;
    }
  }
}

=== FILE: wrappers.dfy ===
/** Option and Result: the "null or value" and "error or value" shapes that the
    callbacks of the modelled code pass around. */
module Wrappers {

  datatype Option<+T> = None | Some(value: T)

  datatype Result<+T, +E> = Success(value: T) | Failure(error: E)
}
